=== FILE: README.md ===
# Csv2Rdf in Dafny

A model of the CSV-to-RDF converter `csv2rdf.py` and of the column-profiling
helpers of its configuration wizard `app.py`, with proofs of what they
promise.

The converter reads a table and a JSON mapping configuration and adds
triples to a graph. It works in these steps:

1. It normalises the configuration: the class list, the two base URIs and
   the prefix table.
2. It checks the primary key and builds a primary-key index from trimmed
   key to subject IRI.
3. It emits a SKOS concept scheme for every catalog column.
4. It walks the rows. Each cell of a row goes to exactly one of four
   branches, tried in this order: entity template, catalog, relation, plain
   literal.
5. A final pass retries the relation values that did not resolve.

The model takes the table after loading (header cleanup done, missing cells
read as `""`). It returns either the set of triples added to the graph or
the error that stops the conversion.

Modules, one per concern of the program:

- `Wrappers`: `Option`, `Result`, dictionary lookup with a default, and
  unions of sets.
- `Strings`: `strip`, `split`, `join`, `startswith`, substring search and
  `lower`. Whitespace is the set of characters Python's `str.isspace`
  accepts, Unicode spaces included.
- `Slug`: `safe`.
- `Cells`: `split_cell`.
- `Curie`: `expand`.
- `Lexical`: the integer, decimal, boolean and date patterns, and
  `infer_datatype`.
- `Rdf`: terms, triples and the vocabulary used.
- `Tables`: rows as maps from column to cell.
- `Config`: the mapping configuration, its normalisation and the per-column
  dispatch rule.
- `Identity`: `pk_to_uri` and the primary-key index.
- `PathTemplate`: the `str.format` path templates of entity templates.
- `Template`: the entity-template branch.
- `Catalog`: the SKOS catalogs.
- `Engine`: the row pass, the deferred pass and `Convert`.
- `Profile`: the app.py helpers `sniff_delimiter`, `infer_cell_type`,
  `infer_column_types`, `detect_multivalues` and `suggest_primary_key`.

Notes on the code's behaviour that the model follows:

- A row's subject is built from `base_uri` (csv2rdf.py:172), not from
  `entity_base_uri`. Only template children live under the entity base.
- A catalog column missing from the table is reported as an error here. The
  code fails at the `df[col]` lookup (csv2rdf.py:182) and has no explicit
  check.
- The index is complete before the row pass starts, so the deferred pass
  never adds anything (`Engine.DeferredPassAddsNothing`). It is not a
  safety net for keys defined later in the table: such keys already resolve
  in the row pass.
- `infer_column_types` compares `freq / len(sample) > 0.8` in floating
  point. The model states it as `5 * freq > 4 * len`. The two agree for
  samples of at most 100 cells, because a ratio of exactly 4/5 rounds to the
  same double as the literal `0.8`, and every other ratio is at least 1/500
  away from it.

## Model

| member | source | states |
|---|---|---|
| Strings.Trim | csv2rdf.py:93 | `strip()` leaves no whitespace at either end and leaves an already trimmed string unchanged; it is `strip` over Python's whitespace set, so `Strings.StripDropsOnlyEnds` and `Strings.StripUnique` make it exactly the removal of the maximal whitespace runs at the ends |
| Strings.StripDropsOnlyEnds | csv2rdf.py:93 | `strip(chars)` removes only characters of `chars`, and only from the two ends: the result is a contiguous slice of the input with stripped characters on either side |
| Strings.StripUnique | csv2rdf.py:93 | any slice that drops only stripped characters at the ends and neither begins nor ends with one is the result of `strip(chars)`; with `Strings.StripDropsOnlyEnds`, `strip` removes the maximal run at each end and nothing else |
| Strings.TrimIdempotent | csv2rdf.py:93 | stripping twice is stripping once |
| Strings.StripEmpty | csv2rdf.py:93 | a string strips to `""` exactly when every character is whitespace (the `if x.strip()` test) |
| Strings.Split | csv2rdf.py:93 | `str.split(sep)` yields at least one piece; joining the pieces with `sep` gives back the input; no piece contains `sep`; cutting starts at the leftmost occurrence (`Strings.SplitLeftmost`) |
| Strings.SplitLeftmost | csv2rdf.py:93 | `split` leaves the input whole exactly when the separator does not occur, and otherwise cuts first at the leftmost occurrence |
| Strings.SplitJoin | csv2rdf.py:93 | splitting a join on a one-character separator the parts avoid gives back the parts |
| Strings.IndexOfChar | csv2rdf.py:98-99 | finds the first occurrence of a character, and `None` exactly when it is absent |
| Slug.AsciiFold | csv2rdf.py:85 | the folded text is all ASCII, and ASCII text is kept as it is |
| Slug.CollapseNonWord | csv2rdf.py:86 | after replacing runs of non-word characters, only word characters remain, and text of word characters is unchanged; each run becomes exactly one `_` (`Slug.CollapseRun`) |
| Slug.CollapseRun | csv2rdf.py:86 | a run of non-word characters between word characters becomes exactly one `_`, and the text before it is kept |
| Slug.CollapseWordPrefix | csv2rdf.py:86 | a prefix of word characters passes through the replacement unchanged |
| Slug.StripUnderscores | csv2rdf.py:86 | the result neither starts nor ends with `_`, and a string without `_` at its ends is unchanged; it is `strip('_')`, so `Strings.StripDropsOnlyEnds` and `Strings.StripUnique` make it the removal of exactly the leading and trailing `_` runs |
| Slug.Safe | csv2rdf.py:83-86 | `safe` yields only word characters, with no `_` at either end |
| Slug.SafeFixpoint | csv2rdf.py:83-86 | `safe(s) == s` exactly when `s` is a slug: word characters only, no `_` at either end |
| Slug.SafeIdempotent | csv2rdf.py:83-86 | `safe(safe(s)) == safe(s)`, so identifiers built from slugs are stable |
| Slug.SafeKeepsUnderscoreRuns | csv2rdf.py:86 | runs of `_` already in the text are not collapsed: `safe("a__b") == "a__b"` |
| Cells.TrimNonEmpty | csv2rdf.py:93 | every kept piece is trimmed and non-empty |
| Cells.TrimNonEmptyKept | csv2rdf.py:93 | the kept pieces are exactly the non-blank pieces, trimmed, in their original order |
| Cells.SplitCell | csv2rdf.py:89-93 | with no separator, the one value is the trimmed cell, possibly empty; otherwise every value is trimmed, non-empty and free of the separator |
| Cells.SplitCellKeepsOrder | csv2rdf.py:93 | the values are the trimmed non-blank pieces of `split(sep)`, in order |
| Cells.SplitCellWithoutSeparator | csv2rdf.py:89-93 | a cell without the separator gives its trimmed self, or nothing when blank |
| Cells.SplitCellJoin | csv2rdf.py:89-93 | clean values joined with a one-character separator split back into the same values |
| Curie.Expand | csv2rdf.py:96-101 | a string without a colon is returned unchanged |
| Curie.ExpandPrefixed | csv2rdf.py:98-100 | `pre:local` becomes the namespace of `pre` followed by `local` when `pre` is known, and `pre` followed by `local` (the colon lost) when it is not |
| Curie.ExpandBreaksAbsoluteIri | csv2rdf.py:98-100 | an absolute `http:` IRI given where a CURIE is expected loses its colon unless `http` is a declared prefix |
| Lexical.IntegerIsNotDecimal | csv2rdf.py:107-110 | the integer and decimal patterns never both match |
| Lexical.NumberIsNotBoolean | csv2rdf.py:107-112 | no number reads as a boolean |
| Lexical.SignAndBareDotAreNotNumbers | csv2rdf.py:107-110 | `+5`, `.5` and `1.` are neither integers nor decimals |
| Lexical.XsdIri | csv2rdf.py:108-115 | every inferred datatype IRI lies in the XSD namespace |
| Lexical.InferDatatype | csv2rdf.py:104-117 | each outcome holds exactly when its rule is the first that matches the trimmed value: integer, decimal, boolean, then date or dateTime by the ISO parse, else none |
| Lexical.InferDatatypeIgnoresPadding | csv2rdf.py:106 | the inferred datatype depends only on the trimmed value |
| Rdf.LangLiteral | csv2rdf.py:181 | `Literal(x, lang=cfg["lang"])` is a literal with lexical form `x` and no datatype, tagged with `lang`, and untagged exactly when `lang` is empty, as rdflib's `Literal` treats `lang=""` |
| Config.NormalizeClasses | csv2rdf.py:135-136 | a list of classes is kept; a class string yields trimmed, non-empty names without `\|` |
| Config.NormalizeClassesJoin | csv2rdf.py:135-136 | clean names joined with `\|` come back unchanged |
| Config.NormalizeBase | csv2rdf.py:158-159 | the base ends in exactly one `/`, preceded by the URI without its trailing slashes |
| Config.NormalizeBaseAppends | csv2rdf.py:158-159 | a URI without a trailing slash just gains one |
| Config.NormalizeBaseIdempotent | csv2rdf.py:158-159 | normalising a normalised base changes nothing |
| Config.MergePrefixes | csv2rdf.py:161-163 | the merged table has the default, the user and the internal prefixes; internal ones override the user's, and the user's override the defaults |
| Config.FirstRelation | csv2rdf.py:278 | yields the first relation declared on the column, and none exactly when no relation names it |
| Config.Dispatch | csv2rdf.py:210-291 | a column is a template column iff it has a template; a catalog column iff it is a catalog and has no template; a relation column iff it has a relation and neither of those; a literal column otherwise |
| Config.Setup | csv2rdf.py:158-163 | both bases end in `/`, and `col`/`val` are bound under the base |
| Identity.PkToUri | csv2rdf.py:120-122 | an absolute key is its own IRI; any other key is the base followed by a slug; the result is absolute when the key or the base is |
| Identity.PkToUriIdempotent | csv2rdf.py:120-122 | under an absolute base, mapping a subject IRI again gives it back |
| Identity.BuildIndex | csv2rdf.py:171-175 | the index keys are exactly the non-empty trimmed keys of the table, each mapped to its `pk_to_uri` |
| Identity.IndexSubjectsNonEmpty | csv2rdf.py:171-175 | with a non-empty base, no indexed subject is empty, so the `if obj:` test is key membership |
| PathTemplate.FormatPath | csv2rdf.py:231-236 | filling in a path succeeds exactly when the template parses |
| PathTemplate.ParseUnparse | csv2rdf.py:231-236 | parsing the spelling of a sequence of pieces gives back those pieces |
| PathTemplate.UnparseParse | csv2rdf.py:231-236 | every template that parses is the spelling of its parse |
| PathTemplate.BracelessPathIsFixed | csv2rdf.py:232-236 | a template without braces renders to itself for every value |
| PathTemplate.DefaultPathIsSafeValue | csv2rdf.py:231-234 | the default path `{safe_value}` renders to the slug of the value |
| PathTemplate.PrefixThenId | csv2rdf.py:232-236 | `prefix{id}` renders to the prefix followed by the id |
| PathTemplate.LoneCloseBraceRejected | csv2rdf.py:232-236 | a template starting with an unpaired `}` is rejected |
| Template.IdFor | csv2rdf.py:235 | `{id}` is the trimmed id at the same position when it is there and not blank, and the value's slug otherwise |
| Template.IdForAligned | csv2rdf.py:219-223 | ids split on a real separator are used as they stand, position by position; values past the last id fall back to their slug |
| Template.LiteralValue | csv2rdf.py:244-261 | `"raw"` gives the value and any other mode its slug; a rule without `from_column` gives nothing; a `from_column` value is trimmed and non-empty; without `match_by_index`, there is a value exactly when the trimmed cell is not blank |
| Template.ByIndexLiteral | csv2rdf.py:252-257 | with `match_by_index`, the literal is the aligned entry of the split column when the position exists, and nothing otherwise |
| Template.ChildTypes | csv2rdf.py:240-241 | the child gets one `rdf:type` per configured type; conversely every triple is an `rdf:type` of the child whose object is the expansion of a configured type |
| Template.ChildLiterals | csv2rdf.py:244-261 | the child gets one literal per rule that yields a value, with the configured language tag (none for an empty `lang`) and no datatype; conversely every triple is the literal of some rule that yields a value, under the rule's expanded predicate |
| Template.ChildTriples | csv2rdf.py:225-266 | the parent-to-child link, the child's types and literals are always there, and the link back exactly when the inverse predicate is set and expands to a non-empty IRI (`URIRef("")` being falsy); without a link back, only type triples of a child distinct from its parent can point at the parent |
| Template.ChildTriplesOnly | csv2rdf.py:237-266 | conversely, every triple of a child is one of its types, one of its literals, the link from the parent, or the link back when there is one |
| Template.BareColonInverseAddsNoBackLink | csv2rdf.py:226-266 | an inverse predicate `":"` with no empty prefix expands to `""`, so the child gets no link back to the parent |
| Template.ChildIri | csv2rdf.py:232-237 | every child IRI starts with the entity base |
| Template.ExpandValues | csv2rdf.py:229-266 | every value's child is linked from the subject; all triples of each value's child are emitted, and every emitted triple belongs to the child of some value; every triple is about the subject or a child under the entity base |
| Template.TemplateCell | csv2rdf.py:210-267 | fails exactly when `link_predicate` is missing, or when there is a value and the path does not parse, with the matching error; with no value it emits nothing; on success each value's child is linked, and every subject is the row or lies under the entity base |
| Template.TemplateCellChildren | csv2rdf.py:229-266 | a successful cell with values holds all triples of each value's child, and nothing that is not a triple of some value's child |
| Template.ExpandValuesTagsLiterals | csv2rdf.py:244-261 | every literal among the children of a cell carries the configured language tag, and none when `lang` is empty |
| Template.TemplateCellTagsLiterals | csv2rdf.py:244-261 | every literal a template cell emits carries the configured language tag, and none when `lang` is empty |
| Template.ValuesComeFromSourceColumn | csv2rdf.py:214-216 | with a `source_column`, the triggering cell's own content does not matter |
| Template.IdsIgnoreTemplateSeparator | csv2rdf.py:219-223 | ids are split on the id column's separator, never on the template's |
| Catalog.CatalogValues | csv2rdf.py:182-184 | every non-blank trimmed cell of the column is a concept value |
| Catalog.CatalogValuesOnly | csv2rdf.py:182-184 | every concept value is the non-blank trimmed cell of some row |
| Catalog.Concepts | csv2rdf.py:182-188 | every value gets its type, label and scheme triples; conversely every triple is one of the three statements about some value's concept |
| Catalog.SchemeTriples | csv2rdf.py:178-188 | a catalog column yields its scheme type and label and the concepts of all its values; conversely every triple is one of the two scheme statements or a statement about a concept of one of the column's values |
| Catalog.SchemeHead | csv2rdf.py:179-181 | the scheme statements are exactly two: its `skos:ConceptScheme` type and its label, tagged with the configured language unless `lang` is empty |
| Catalog.CatalogTriplesContain | csv2rdf.py:178-188 | every catalog column contributes its whole scheme to the catalog pass |
| Catalog.CatalogCell | csv2rdf.py:270-275 | a catalog cell links the subject to the concept of each of its values, and to nothing else |
| Catalog.SingleValueLinksDeclaredConcept | csv2rdf.py:270-275 | the concept a single-value catalog cell links to is declared by the catalog pass |
| Engine.Collect | csv2rdf.py:204-206 | processing in order stops at the first failure and reports it; otherwise every output's triples are kept |
| Engine.CollectOnly | csv2rdf.py:204-206 | conversely, on success every triple and every deferred value comes from one of the successful outputs |
| Engine.RelationCell | csv2rdf.py:278-287 | a value whose key resolves is linked to the indexed subject; one that does not is deferred; every link points at an indexed subject and every deferred value has the cell's subject and predicate |
| Engine.RelationCellOnly | csv2rdf.py:278-287 | every link of a relation cell is one of its values that resolves, and every deferred entry one of its values that does not |
| Engine.LiteralDatatype | csv2rdf.py:292-294 | a datatype override wins; otherwise the inferred datatype is used, and none when inference finds none |
| Engine.LiteralCell | csv2rdf.py:289-295 | a plain column gives one untagged literal per value, under the column's predicate; conversely every triple is the literal of one of the values, with exactly the datatype `Engine.LiteralDatatype` gives that value |
| Engine.CellOutput | csv2rdf.py:204-294 | the key column and empty cells emit nothing; only template columns can fail; only relation columns defer; no deferred value resolves |
| Engine.CellGoesToOneBranch | csv2rdf.py:210-294 | a cell that is not skipped has exactly the outcome of the one branch `Config.Dispatch` picks: the template cell's triples or error, the catalog links, the relation links and deferred values, or the plain literals |
| Engine.TemplateColumnEmitsNoPlainLiteral | csv2rdf.py:210-267 | a template column emits only literals with the configured language tag; with a non-empty `lang` they are all tagged, so none is one of the untagged literals the plain-literal branch would give for the same cell |
| Engine.ClassTriples | csv2rdf.py:200-201 | the subject gets every configured class as a type; conversely every triple is an `rdf:type` of the subject whose object is the expansion of a configured class |
| Engine.RowOutput | csv2rdf.py:193-206 | a row with a blank key emits nothing; any other row fails exactly when one of its cells fails, and otherwise carries its class types and every cell's triples |
| Engine.RowOutputOnly | csv2rdf.py:193-294 | conversely, a row emits only its class types and the triples of its cells, and defers only its cells' deferred values |
| Engine.FirstPass | csv2rdf.py:193-294 | the row pass fails exactly when some row fails, and otherwise holds every row's triples |
| Engine.FirstPassOnly | csv2rdf.py:193-294 | conversely, every triple and deferred value of the row pass comes from one of the rows |
| Engine.Resolve | csv2rdf.py:297-301 | the deferred pass links exactly the buffered values whose keys resolve |
| Engine.ResolveUnresolved | csv2rdf.py:297-301 | values that do not resolve produce nothing |
| Engine.MissingColumn | csv2rdf.py:178-182 | finds the first catalog column the table lacks, and none exactly when all are present |
| Engine.Convert | csv2rdf.py:153-301 | fails with the primary-key error exactly when the key is unset or not a column; otherwise with a catalog error exactly when a catalog column is missing; on success holds the whole catalog pass |
| Engine.ConvertFailsWithRowPass | csv2rdf.py:153-301 | with the key and every catalog column present, the conversion fails exactly when the row pass fails, and with the row pass's error |
| Engine.CatalogsThenPasses | csv2rdf.py:177-301 | after the key check, fails with a catalog error exactly when a catalog column is missing, fails otherwise only with a row's error, and keeps the catalog triples; when no catalog column is missing it is the two passes, whose failures are the row pass's (`Engine.ConvertFailsWithRowPass`) |
| Engine.Passes | csv2rdf.py:190-301 | the row pass and the deferred pass fail only with a row's error and keep every triple given before them; they fail exactly when the row pass does (`Engine.PassesFailsWithRowPass`) |
| Engine.PassesFailsWithRowPass | csv2rdf.py:190-301 | the row pass and the deferred pass fail exactly when the row pass fails, and with its error |
| Engine.RowSubjectIsIndexed | csv2rdf.py:194-197 | every row with a non-blank key has its subject in the index |
| Engine.IndexDeterminedByKeys | csv2rdf.py:171-175 | the index depends only on which keys occur: row order and duplicates do not change it |
| Engine.IndexedKeyHasRow | csv2rdf.py:170-174 | every index entry comes from a row with that non-blank key and is that row's subject |
| Engine.RelationTargetsAreRowSubjects | csv2rdf.py:278-284 | every relation link points at the subject of some row |
| Engine.DeferredPassAddsNothing | csv2rdf.py:297-301 | the graph is the catalog pass plus the row pass: the deferred pass adds no triple |
| Profile.FirstLargest | app.py:70-74 | picks the first position of a largest count, since only a strictly larger count replaces the best so far |
| Profile.SniffDelimiter | app.py:68-75 | the delimiter is a candidate that splits the first line into the most fields, and every earlier candidate gives strictly fewer |
| Profile.InferCellType | app.py:77-89 | each type holds exactly when its pattern is the first that matches the trimmed cell, in the order integer, decimal, boolean, date |
| Profile.NeverGYear | app.py:87-88 | `"gYear"` is never inferred, because four digits already match the integer pattern |
| Profile.DateIsLexicalOnly | app.py:85-86 | any `dddd-dd-dd` string, `2024-99-99` included, is a date |
| Profile.CellTypeAgreesWithDatatype | app.py:79-84 | the wizard and the converter agree on integer, decimal and boolean cells |
| Profile.Leader | app.py:99 | the earliest position holding a most frequent element |
| Profile.MostCommon | app.py:99 | `most_common(1)` gives a most frequent element, the first seen among ties |
| Profile.Present | app.py:95 | `dropna()` keeps exactly the present cells, as many as there are present; with `Profile.PresentConcat`, in their original order, and with `Profile.PresentCounts`, each as often as it occurs |
| Profile.PresentCounts | app.py:95 | every present value is kept exactly as many times as it occurs in the column |
| Profile.PresentCons | app.py:95 | `dropna()` keeps a present head cell in front and drops a missing one |
| Profile.PresentConcat | app.py:95 | `dropna()` of a concatenation is the concatenation of the two `dropna()`s, so the kept cells stay in their order |
| Profile.ColumnOverride | app.py:95-101 | a column is typed exactly when its sample is non-empty and its main type is not a string and covers more than 80% of it; the type is the `xsd:` name of the most common type, first seen among ties, and never `xsd:gYear` |
| Profile.MajorityTypeDecides | app.py:95-101 | any non-string type that covers more than 80% of the sample is the one the column is typed with |
| Profile.IntegerColumn | app.py:95-101 | a column whose sampled cells are all integers is typed `xsd:integer` |
| Profile.InferColumnTypes | app.py:91-102 | a column name is mapped exactly when a column of that name gets an override, only to the integer, decimal, boolean or date type, and to the override of a column with that name |
| Profile.LastOverrideWins | app.py:94-101 | among columns with the same name, the last one with an override decides |
| Profile.DetectMultivalues | app.py:104-110 | a column is mapped exactly when one of its first 50 cells, read as text, contains the separator, and only to that separator |
| Profile.SeparatorInFirstCell | app.py:107-109 | a column whose first cell contains the separator is detected |
| Profile.SuggestPrimaryKey | app.py:112-116 | the result is `""` exactly when no candidate is a column; otherwise it is the first candidate, in priority order, that is a column |

## Left out

- Reading the CSV file and cleaning its header, loading the JSON configuration, logging, the command line, the output-format check and serialisation (csv2rdf.py:127-134, 138-151 and 303-334) are I/O. The model starts from the loaded table and ends with the set of triples.
- The prefix bindings of the graph (csv2rdf.py:166-168) only affect serialisation.
- The wizard UI, its session state and graph display (app.py:118 onwards), and check_rdf.py, are interface and file checks, not conversion logic.
- Slug.AsciiFold: NFKD folding is modelled for ASCII and Latin-1 characters only; any other non-ASCII character is dropped, because Unicode decomposition tables are outside the model.
- Slug.CollapseNonWord: `\W` is taken over ASCII word characters only, because Unicode character classes are outside the model.
- Strings.Lower: `lower()` is modelled for ASCII letters only.
- Lexical.InferDatatype and Profile.InferCellType: `\d` in the number and date patterns is taken as the ASCII digits `0`-`9`. Python's `\d` on text also matches every other Unicode decimal digit, so a cell such as `"١٢"` is an integer in the source and untyped (a string cell for the profiler) in the model, because Unicode character classes are outside the model.
- Lexical.InferDatatype: `datetime.fromisoformat` is a parameter that says whether the value parses, and whether at midnight, because ISO date parsing is outside the model.
- PathTemplate.FormatPath: only `{value}`, `{safe_value}`, `{id}`, `{{` and `}}` are understood. Any other field, conversion, format spec or index is treated as an error, although `str.format` accepts some of them.
- Catalog.CatalogValues: concept values are whole trimmed cells, as the code takes them. A multivalued catalog cell therefore links, in the row pass, to concepts the catalog pass never declared. The model reproduces this and proves agreement only for single-value cells (`Catalog.SingleValueLinksDeclaredConcept`).
- Slug.Safe: the slug can be empty (for `"!!!"`), and the model keeps this. Distinct keys such as `"a!"` and `"a?"` then share a subject IRI.
- Engine.Convert: its own contract states the key and catalog error cases and the catalog part. The row errors are stated on `Engine.ConvertFailsWithRowPass`, the row part is stated on `Engine.FirstPass`, `Engine.RowOutput`, `Engine.CellOutput` and their converse lemmas (`Engine.FirstPassOnly`, `Engine.RowOutputOnly`, `Engine.CellGoesToOneBranch`), and the deferred part on `Engine.DeferredPassAddsNothing`.
- Config.FirstRelation: every relation entry is taken to have both `from` and `predicate`. An entry without `from` examined before a match (csv2rdf.py:278), or a matching entry without `predicate` (csv2rdf.py:280), makes the code raise `KeyError`, which the model does not represent; `Engine.RelationCell` therefore never fails.
- Rdf.LangLiteral: rdflib's validation of the language tag is not modelled. A malformed `lang` such as `"es_ES"` makes `Literal` raise `ValueError` at the first tagged literal the code builds (the first catalog scheme label at csv2rdf.py:181, or else the first template literal), so the conversion fails; the model keeps the tag as configured and succeeds. Any normalisation of the tag inside the graph library is not modelled either.
- Engine.TemplateColumnEmitsNoPlainLiteral: with an empty `lang`, template literals are untagged like those of the plain-literal branch, so the disjointness of the two is promised only for a non-empty `lang`.
- Literals are compared as written. rdflib's normalisation of typed lexical forms (for example of `"01"` as an integer) happens inside the graph library and is not modelled.
- Profile.ColumnOverride: cells are taken as already rendered text. `astype(str)` of non-string cells (numbers read by pandas) is not modelled.
- Profile.InferColumnTypes: a data frame with duplicate column names is modelled as separate columns, the last override winning. pandas would return a sub-frame for `df[col]`.

=== FILE: catalog.dfy ===
/** SKOS catalogs (csv2rdf.py:178-188 and 270-275): every catalog column
    becomes a concept scheme whose concepts are the column's distinct
    trimmed values, and a catalog cell links the row to the concepts of its
    values. */
module Catalog {
  import opened Wrappers
  import opened Strings
  import opened Slug
  import opened Cells
  import opened Curie
  import opened Rdf
  import opened Tables
  import opened Config

  /** `ns["col"][safe(col)]`: the scheme of a catalog column, which is also
      the default predicate of the column. */
  function SchemeIri(base: string, col: string): string {
    base + "column/" + Safe(col)
  }

  /** `ns["val"][f"{safe(col)}/{safe(v)}"]`: the concept of a value. */
  function ConceptIri(base: string, col: string, v: string): string {
    base + "value/" + Safe(col) + "/" + Safe(v)
  }

  /** `df[col].dropna().unique()`, each value trimmed, blanks dropped: the
      distinct non-blank trimmed cells of the column. Whole cells are taken,
      without splitting on the column's multivalue separator. */
  function CatalogValues(rows: seq<Row>, col: string): (vs: set<string>)
    ensures forall i | 0 <= i < |rows| && Trim(Get(rows[i], col)) != [] :: Trim(Get(rows[i], col)) in vs
  {
    set i | 0 <= i < |rows| && Trim(Get(rows[i], col)) != [] :: Trim(Get(rows[i], col))
  }

  /** Conversely, every catalog value is the non-blank trimmed cell of
      some row. */
  lemma CatalogValuesOnly(rows: seq<Row>, col: string, v: string)
    requires v in CatalogValues(rows, col)
    ensures v != [] && exists i | 0 <= i < |rows| :: Trim(Get(rows[i], col)) == v
  {
  }

  /** The three statements about one concept: its type, its label and its
      scheme. */
  function ConceptTriples(base: string, lang: string, col: string, v: string): set<Triple> {
    var c := ConceptIri(base, col, v);
    {Triple(c, RdfType, Iri(SkosConcept)),
     Triple(c, SkosPrefLabel, LangLiteral(v, lang)),
     Triple(c, SkosInScheme, Iri(SchemeIri(base, col)))}
  }

  /** The concepts of a set of values. */
  function Concepts(base: string, lang: string, col: string, vals: set<string>): (r: set<Triple>)
    ensures forall v | v in vals :: ConceptTriples(base, lang, col, v) <= r
    ensures forall t | t in r :: exists v | v in vals :: t in ConceptTriples(base, lang, col, v)
  {
    set v, t | v in vals && t in ConceptTriples(base, lang, col, v) :: t
  }

  /** The triples of one catalog column: the scheme with its label, and
      every concept of the column's values. */
  function SchemeTriples(base: string, lang: string, col: string, rows: seq<Row>): (r: set<Triple>)
    ensures SchemeHead(base, lang, col) <= r
    ensures forall v | v in CatalogValues(rows, col) :: ConceptTriples(base, lang, col, v) <= r
    ensures forall t | t in r ::
      t in SchemeHead(base, lang, col) || exists v | v in CatalogValues(rows, col) :: t in ConceptTriples(base, lang, col, v)
  {
    SchemeHead(base, lang, col) + Concepts(base, lang, col, CatalogValues(rows, col))
  }

  /** The two statements about the scheme itself: its type and its label. */
  function SchemeHead(base: string, lang: string, col: string): (r: set<Triple>)
    ensures Triple(SchemeIri(base, col), RdfType, Iri(SkosConceptScheme)) in r
    ensures Triple(SchemeIri(base, col), RdfsLabel, LangLiteral(col, lang)) in r
    ensures |r| == 2
  {
    var scheme := SchemeIri(base, col);
    {Triple(scheme, RdfType, Iri(SkosConceptScheme)), Triple(scheme, RdfsLabel, LangLiteral(col, lang))}
  }

  /** The scheme triples of each catalog column, in order. */
  function Schemes(base: string, lang: string, catalogs: seq<string>, rows: seq<Row>): (ss: seq<set<Triple>>)
    ensures |ss| == |catalogs|
  {
    seq(|catalogs|, k requires 0 <= k < |catalogs| => SchemeTriples(base, lang, catalogs[k], rows))
  }

  /** csv2rdf.py:179-188: the triples of all catalog columns. */
  function CatalogTriples(base: string, lang: string, catalogs: seq<string>, rows: seq<Row>): set<Triple> {
    var ss := Schemes(base, lang, catalogs, rows);
    UnionAll(ss, |ss|)
  }

  /** Every catalog column contributes its whole scheme. */
  lemma CatalogTriplesContain(base: string, lang: string, catalogs: seq<string>, rows: seq<Row>, k: nat)
    requires k < |catalogs|
    ensures SchemeTriples(base, lang, catalogs[k], rows) <= CatalogTriples(base, lang, catalogs, rows)
  {
    var ss := Schemes(base, lang, catalogs, rows);
    assert ss[k] == SchemeTriples(base, lang, catalogs[k], rows);
    assert ss[k] <= UnionAll(ss, |ss|);
  }

  /** csv2rdf.py:271-272: the predicate of a catalog cell is the expanded
      `property_map` entry when the column has one (even an empty one), and
      the column's scheme otherwise. */
  function CatalogPredicate(env: Env, col: string): string {
    if col in env.cfg.propertyMap then Expand(env.cfg.propertyMap[col], env.prefixes)
    else SchemeIri(env.base, col)
  }

  /** csv2rdf.py:271-275: a catalog cell links the row's subject to the
      concept of each of its values. */
  function CatalogCell(env: Env, subj: string, col: string, cell: string): (r: set<Triple>)
    ensures var values := SplitCell(cell, ColumnSeparator(env.cfg, col));
      && (forall v | v in values :: Triple(subj, CatalogPredicate(env, col), Iri(ConceptIri(env.base, col, v))) in r)
      && (forall t | t in r :: t.subj == subj && t.pred == CatalogPredicate(env, col) &&
            exists v | v in values :: t.obj == Iri(ConceptIri(env.base, col, v)))
  {
    var pred := CatalogPredicate(env, col);
    set v | v in SplitCell(cell, ColumnSeparator(env.cfg, col)) :: Triple(subj, pred, Iri(ConceptIri(env.base, col, v)))
  }

  /** A catalog cell holding one value (no separator in it) links the row to
      a concept the catalog pass declared: the two passes agree on concept
      IRIs. */
  lemma SingleValueLinksDeclaredConcept(env: Env, rows: seq<Row>, i: nat, subj: string, col: string, t: Triple)
    requires i < |rows| && col in env.cfg.catalogs
    requires Trim(Get(rows[i], col)) != []
    requires ColumnSeparator(env.cfg, col) == [] || !Contains(Get(rows[i], col), ColumnSeparator(env.cfg, col))
    requires t in CatalogCell(env, subj, col, Get(rows[i], col))
    ensures t.obj.Iri?
    ensures Triple(t.obj.iri, RdfType, Iri(SkosConcept)) in
      CatalogTriples(env.base, env.cfg.lang, env.cfg.catalogs, rows)
  {
    var cell := Get(rows[i], col);
    var sep := ColumnSeparator(env.cfg, col);
    if sep != [] {
      SplitCellWithoutSeparator(cell, sep);
    }
    assert SplitCell(cell, sep) == [Trim(cell)];
    var v := Trim(cell);
    assert t.obj == Iri(ConceptIri(env.base, col, v));
    assert v in CatalogValues(rows, col);
    var k :| 0 <= k < |env.cfg.catalogs| && env.cfg.catalogs[k] == col;
    CatalogTriplesContain(env.base, env.cfg.lang, env.cfg.catalogs, rows, k);
    assert Triple(ConceptIri(env.base, col, v), RdfType, Iri(SkosConcept)) in ConceptTriples(env.base, env.cfg.lang, col, v);
  }
}

=== FILE: cells.dfy ===
/** The cell splitter `split_cell` (csv2rdf.py:89-93). */
module Cells {
  import opened Strings

  /** The positions of the pieces that survive trimming, in increasing order. */
  ghost function Kept(pieces: seq<string>): (o: seq<nat>)
    ensures forall i :: 0 <= i < |o| ==> o[i] < |pieces|
    ensures forall i, j :: 0 <= i < j < |o| ==> o[i] < o[j]
    ensures forall j :: 0 <= j < |pieces| ==> (j in o <==> Trim(pieces[j]) != [])
  {
    if pieces == [] then []
    else
      var n := |pieces| - 1;
      var o := Kept(pieces[..n]);
      assert forall j :: 0 <= j < n ==> pieces[..n][j] == pieces[j];
      o + (if Trim(pieces[n]) != [] then [n] else [])
  }

  /** `[x.strip() for x in pieces if x.strip()]`: trimmed, non-empty values. */
  function TrimNonEmpty(pieces: seq<string>): (r: seq<string>)
    ensures forall i :: 0 <= i < |r| ==> r[i] != [] && IsTrimmed(r[i])
  {
    if pieces == [] then []
    else
      var n := |pieces| - 1;
      TrimNonEmpty(pieces[..n]) + (if Trim(pieces[n]) != [] then [Trim(pieces[n])] else [])
  }

  /** The values of `TrimNonEmpty` are the trimmed pieces at the kept
      positions, in order: exactly the pieces that are not blank survive. */
  lemma {:induction false} TrimNonEmptyKept(pieces: seq<string>)
    ensures var r := TrimNonEmpty(pieces);
      && |r| == |Kept(pieces)|
      && forall i :: 0 <= i < |r| ==> r[i] == Trim(pieces[Kept(pieces)[i]])
  {
    if pieces != [] {
      var n := |pieces| - 1;
      var front := pieces[..n];
      TrimNonEmptyKept(front);
      var r0, o0 := TrimNonEmpty(front), Kept(front);
      var tail := if Trim(pieces[n]) != [] then [Trim(pieces[n])] else [];
      assert TrimNonEmpty(pieces) == r0 + tail;
      assert Kept(pieces) == o0 + (if Trim(pieces[n]) != [] then [n] else []);
      forall i | 0 <= i < |r0|
        ensures (r0 + tail)[i] == Trim(pieces[Kept(pieces)[i]])
      {
        assert front[o0[i]] == pieces[o0[i]];
      }
    }
  }

  /** A character-wise infix of a string that does not contain `pat` does not
      contain `pat` either. */
  lemma InfixAvoids(s: string, r: string, k: nat, pat: string)
    requires k + |r| <= |s|
    requires forall i :: 0 <= i < |r| ==> r[i] == s[k + i]
    requires !Contains(s, pat)
    ensures !Contains(r, pat)
  {
    forall j | 0 <= j <= |r| && OccursAt(r, pat, j)
      ensures false
    {
      assert s[k + j..k + j + |pat|] == r[j..j + |pat|];
      assert OccursAt(s, pat, k + j);
    }
  }

  /** Trimming never creates an occurrence of `pat`. */
  lemma TrimAvoids(s: string, pat: string)
    requires !Contains(s, pat)
    ensures !Contains(Trim(s), pat)
  {
    InfixAvoids(s, Trim(s), SkipFrom(s, Whitespace, 0), pat);
  }

  /** `split_cell(cell, sep)`. With no separator the whole trimmed cell is
      the only value, possibly empty; otherwise every value is trimmed,
      non-empty and free of the separator. */
  function SplitCell(cell: string, sep: string): (r: seq<string>)
    ensures sep == [] ==> r == [Trim(cell)]
    ensures sep != [] ==>
      forall i :: 0 <= i < |r| ==> r[i] != [] && IsTrimmed(r[i]) && !Contains(r[i], sep)
  {
    if sep == [] then [Trim(cell)]
    else
      var pieces := Split(cell, sep);
      var r := TrimNonEmpty(pieces);
      assert forall i :: 0 <= i < |r| ==> !Contains(r[i], sep) by {
        forall i | 0 <= i < |r|
          ensures !Contains(r[i], sep)
        {
          TrimNonEmptyKept(pieces);
          TrimAvoids(pieces[Kept(pieces)[i]], sep);
        }
      }
      r
  }

  /** With a non-empty separator the values are the trimmed non-empty pieces
      of `cell.split(sep)`, in their original order. */
  lemma SplitCellKeepsOrder(cell: string, sep: string)
    requires sep != []
    ensures var pieces := Split(cell, sep);
      var r := SplitCell(cell, sep);
      && |r| == |Kept(pieces)|
      && (forall i :: 0 <= i < |r| ==> r[i] == Trim(pieces[Kept(pieces)[i]]))
      && (forall i, j :: 0 <= i < j < |r| ==> Kept(pieces)[i] < Kept(pieces)[j])
  {
    TrimNonEmptyKept(Split(cell, sep));
  }

  /** A cell without the separator yields its trimmed content, or nothing
      when that is blank. */
  lemma SplitCellWithoutSeparator(cell: string, sep: string)
    requires sep != [] && !Contains(cell, sep)
    ensures SplitCell(cell, sep) == (if Trim(cell) == [] then [] else [Trim(cell)])
  {
    assert Split(cell, sep) == [cell];
    assert [cell][..0] == [];
    assert TrimNonEmpty([cell]) == TrimNonEmpty([]) + (if Trim(cell) != [] then [Trim(cell)] else []);
  }

  /** Pieces that are already trimmed and non-empty are all kept. */
  lemma {:induction false} TrimNonEmptyKeepsClean(xs: seq<string>)
    requires forall i :: 0 <= i < |xs| ==> xs[i] != [] && IsTrimmed(xs[i])
    ensures TrimNonEmpty(xs) == xs
  {
    if xs != [] {
      var n := |xs| - 1;
      TrimNonEmptyKeepsClean(xs[..n]);
      assert xs == xs[..n] + [xs[n]];
    }
  }

  /** Round trip: joining clean values with a one-character separator and
      splitting the cell again gives the values back. */
  lemma SplitCellJoin(xs: seq<string>, c: char)
    requires forall i :: 0 <= i < |xs| ==> xs[i] != [] && IsTrimmed(xs[i]) && c !in xs[i]
    ensures SplitCell(Join(xs, [c]), [c]) == xs
  {
    if xs == [] {
      assert Split("", [c]) == [""];
      assert [""][..0] == [];
    } else {
      SplitJoin(xs, c);
      TrimNonEmptyKeepsClean(xs);
    }
  }
}

=== FILE: config.dfy ===
/** The mapping configuration and the set-up steps of `csv_to_rdf` that
    normalise it (csv2rdf.py:41-68, 135-136, 153-163), plus the per-column
    dispatch rule of the row loop (csv2rdf.py:207-291). */
module Config {
  import opened Wrappers
  import opened Strings
  import opened Cells
  import opened Slug
  import Lexical

  /** How an entity-template literal gets its value: a mode string (`"raw"`
      means the value verbatim, any other string the slug of the value), a
      `from_column` rule with its `match_by_index` flag, or a rule without
      `from_column`, which emits nothing. */
  datatype LiteralRule =
    | Mode(mode: string)
    | FromColumn(column: string, byIndex: bool)
    | Ignored

  /** One `entity_templates` entry. Optional keys are `Option`s, falling back
      as `spec.get` does; `linkPredicate` is read with `spec[...]`, so its
      absence is an error; an empty `inversePredicate` means none is set. The
      `id_source` entry is reduced to its `from_column`, the only part read. */
  datatype EntityTemplate = EntityTemplate(
    sourceColumn: Option<string>,
    separator: Option<string>,
    path: Option<string>,
    types: seq<string>,
    linkPredicate: Option<string>,
    inversePredicate: string,
    idColumn: Option<string>,
    literals: map<string, LiteralRule>)

  /** One `relations` entry: `{"from": column, "predicate": curie}`. */
  datatype RelationSpec = RelationSpec(fromColumn: string, predicateCurie: string)

  /** `classes` as written: a list, or one string of `|`-separated names. */
  datatype Classes = ClassList(items: seq<string>) | ClassString(text: string)

  /** The configuration after the user's JSON has been laid over the
      defaults. An empty `primaryKey` stands for a missing one; an empty
      value in `propertyMap` or `datatypeOverrides` counts as unset, as the
      code tests those values for truth. */
  datatype MappingConfig = MappingConfig(
    baseUri: string,
    entityBaseUri: string,
    prefixes: map<string, string>,
    separator: string,
    primaryKey: string,
    multivalued: map<string, string>,
    catalogs: seq<string>,
    relations: seq<RelationSpec>,
    propertyMap: map<string, string>,
    templates: map<string, EntityTemplate>,
    classes: Classes,
    datatypeOverrides: map<string, string>,
    lang: string)

  const BaseDefault: string := "http://example.org/resource/"

  const DefaultPrefixes: map<string, string> :=
    map["xsd" := Lexical.XsdNamespace, "bibo" := "http://purl.org/ontology/bibo/"]

  /** The configuration used when no file is given. */
  const DefaultConfig: MappingConfig := MappingConfig(
    BaseDefault, BaseDefault, DefaultPrefixes, ",", "", map[], [], [], map[], map[],
    ClassList(["bibo:Article"]), map[], "en")

  /** csv2rdf.py:135-136: a class string is split on `|`, each name trimmed
      and blank names dropped; a list is used as it is. */
  function NormalizeClasses(c: Classes): (r: seq<string>)
    ensures c.ClassList? ==> r == c.items
    ensures c.ClassString? ==>
      forall i :: 0 <= i < |r| ==> r[i] != [] && IsTrimmed(r[i]) && '|' !in r[i]
  {
    match c
    case ClassList(items) => items
    case ClassString(text) =>
      var r := SplitCell(text, "|");
      assert forall i :: 0 <= i < |r| ==> '|' !in r[i] by {
        forall i | 0 <= i < |r|
          ensures '|' !in r[i]
        {
          ContainsChar(r[i], '|');
        }
      }
      r
  }

  /** Round trip: clean class names joined with `|` come back unchanged. */
  lemma NormalizeClassesJoin(names: seq<string>)
    requires forall i :: 0 <= i < |names| ==> names[i] != [] && IsTrimmed(names[i]) && '|' !in names[i]
    ensures NormalizeClasses(ClassString(Join(names, "|"))) == names
  {
    SplitCellJoin(names, '|');
  }

  /** csv2rdf.py:158-159: `uri.rstrip("/") + "/"`. The result ends in exactly
      one slash, preceded by the URI with its trailing slashes removed. */
  function NormalizeBase(uri: string): (r: string)
    ensures |r| >= 1 && r[|r| - 1] == '/'
    ensures |r| == 1 || r[|r| - 2] != '/'
    ensures |r| - 1 <= |uri| && r[..|r| - 1] == uri[..|r| - 1]
    ensures forall i :: |r| - 1 <= i < |uri| ==> uri[i] == '/'
  {
    var stem := StripRight(uri, {'/'});
    assert (stem + "/")[..|stem|] == stem;
    stem + "/"
  }

  /** A URI that does not already end in a slash just gains one. */
  lemma NormalizeBaseAppends(uri: string)
    requires uri == [] || uri[|uri| - 1] != '/'
    ensures NormalizeBase(uri) == uri + "/"
  {
  }

  /** Normalising an already normalised base changes nothing. */
  lemma NormalizeBaseIdempotent(uri: string)
    ensures NormalizeBase(NormalizeBase(uri)) == NormalizeBase(uri)
  {
    var b := NormalizeBase(uri);
    var stem := StripRight(b, {'/'});
    assert stem == b[..|b| - 1];
  }

  /** The internal prefixes, rooted at the normalised base. */
  function InternalPrefixes(base: string): map<string, string> {
    map["rec" := base, "col" := base + "column/", "val" := base + "value/"]
  }

  /** csv2rdf.py:161-163: defaults, then the user's prefixes, then the
      internal `rec`/`col`/`val` ones, each layer overriding the previous. */
  function MergePrefixes(user: map<string, string>, base: string): (r: map<string, string>)
    ensures r.Keys == DefaultPrefixes.Keys + user.Keys + {"rec", "col", "val"}
    ensures r["rec"] == base && r["col"] == base + "column/" && r["val"] == base + "value/"
    ensures forall k :: k in user && k !in {"rec", "col", "val"} ==> r[k] == user[k]
    ensures forall k :: k in DefaultPrefixes && k !in user && k !in {"rec", "col", "val"} ==>
              r[k] == DefaultPrefixes[k]
  {
    DefaultPrefixes + user + InternalPrefixes(base)
  }

  /** `cfg["multivalued"].get(col, cfg["separator"])`. */
  function ColumnSeparator(cfg: MappingConfig, col: string): string {
    Lookup(cfg.multivalued, col, cfg.separator)
  }

  /** The branch of the row loop that handles a column. */
  datatype Handling =
    | AsTemplate(spec: EntityTemplate)
    | AsCatalog
    | AsRelation(rel: RelationSpec)
    | AsLiteral

  /** `next((r for r in relations if r["from"] == col), None)`: the first
      relation declared on the column, if any. */
  function FirstRelation(relations: seq<RelationSpec>, col: string): (r: Option<RelationSpec>)
    ensures r.None? <==> forall i :: 0 <= i < |relations| ==> relations[i].fromColumn != col
    ensures r.Some? ==> r.value.fromColumn == col
    ensures r.Some? ==>
      exists i :: 0 <= i < |relations| && relations[i] == r.value &&
        forall j :: 0 <= j < i ==> relations[j].fromColumn != col
  {
    if relations == [] then None
    else if relations[0].fromColumn == col then Some(relations[0])
    else
      var r := FirstRelation(relations[1..], col);
      assert forall i :: 1 <= i < |relations| ==> relations[i] == relations[1..][i - 1];
      r
  }

  /** csv2rdf.py:210, 270, 278-279: the first matching category wins, in the
      order entity template, catalog, relation, plain literal. */
  function Dispatch(cfg: MappingConfig, col: string): (h: Handling)
    ensures h.AsTemplate? <==> col in cfg.templates
    ensures h.AsTemplate? ==> h.spec == cfg.templates[col]
    ensures h.AsCatalog? <==> col !in cfg.templates && col in cfg.catalogs
    ensures h.AsRelation? <==>
      col !in cfg.templates && col !in cfg.catalogs &&
      exists i :: 0 <= i < |cfg.relations| && cfg.relations[i].fromColumn == col
    ensures h.AsRelation? ==> h.rel.fromColumn == col
    ensures h.AsLiteral? <==>
      col !in cfg.templates && col !in cfg.catalogs &&
      forall i :: 0 <= i < |cfg.relations| ==> cfg.relations[i].fromColumn != col
  {
    if col in cfg.templates then AsTemplate(cfg.templates[col])
    else if col in cfg.catalogs then AsCatalog
    else match FirstRelation(cfg.relations, col)
      case Some(rel) => AsRelation(rel)
      case None => AsLiteral
  }

  /** The ways a conversion stops: the primary key is unset or not a column
      (csv2rdf.py:154-156), a catalog names a column the table lacks (the
      `df[col]` lookup, csv2rdf.py:182), an entity template without
      `link_predicate` (csv2rdf.py:227), or a path template `str.format`
      cannot fill (csv2rdf.py:232-236). */
  datatype Error =
    | PrimaryKeyNotFound(key: string)
    | CatalogColumnNotFound(column: string)
    | LinkPredicateMissing(column: string)
    | MalformedPath(column: string, path: string)

  /** The normalised set-up shared by every row: the configuration, the two
      bases with exactly one trailing slash, the merged prefix table and the
      class list. */
  datatype Env = Env(
    cfg: MappingConfig,
    base: string,
    entityBase: string,
    prefixes: map<string, string>,
    classes: seq<string>)

  /** csv2rdf.py:135-136 and 158-163. */
  function Setup(cfg: MappingConfig): (env: Env)
    ensures env.cfg == cfg
    ensures "col" in env.prefixes && "val" in env.prefixes
    ensures env.prefixes["col"] == env.base + "column/" && env.prefixes["val"] == env.base + "value/"
    ensures |env.base| >= 1 && env.base[|env.base| - 1] == '/'
    ensures |env.entityBase| >= 1 && env.entityBase[|env.entityBase| - 1] == '/'
  {
    var base := NormalizeBase(cfg.baseUri);
    Env(cfg, base, NormalizeBase(cfg.entityBaseUri), MergePrefixes(cfg.prefixes, base),
        NormalizeClasses(cfg.classes))
  }
}

=== FILE: curie.dfy ===
/** The CURIE resolver `expand` (csv2rdf.py:96-101). */
module Curie {
  import opened Wrappers
  import opened Strings

  /** `expand(curie, prefixes)`: split at the first colon and replace the
      prefix by its namespace when the table knows it. An unknown prefix is
      kept as it is, so the colon is lost; a string without a colon is
      returned unchanged. */
  function Expand(curie: string, prefixes: map<string, string>): (r: string)
    ensures ':' !in curie ==> r == curie
  {
    match IndexOfChar(curie, ':')
    case None => curie
    case Some(i) =>
      var pre := curie[..i];
      Lookup(prefixes, pre, pre) + curie[i + 1..]
  }

  /** The first colon of `pre + ":" + local` is the one after `pre` when
      `pre` has none. */
  lemma FirstColon(pre: string, local: string)
    requires ':' !in pre
    ensures IndexOfChar(pre + ":" + local, ':') == Some(|pre|)
  {
    var s := pre + ":" + local;
    assert s[|pre|] == ':';
    var r := IndexOfChar(s, ':');
    assert forall j :: 0 <= j < |pre| ==> s[j] == pre[j];
    assert r.value >= |pre| by {
      assert s[r.value] == ':';
    }
  }

  /** Expansion of `pre:local` for a prefix without a colon: a known prefix
      is replaced by its namespace, an unknown one is glued to the local
      part with the colon dropped. */
  lemma ExpandPrefixed(pre: string, local: string, prefixes: map<string, string>)
    requires ':' !in pre
    ensures pre in prefixes ==> Expand(pre + ":" + local, prefixes) == prefixes[pre] + local
    ensures pre !in prefixes ==> Expand(pre + ":" + local, prefixes) == pre + local
  {
    FirstColon(pre, local);
    var s := pre + ":" + local;
    assert s[..|pre|] == pre;
    assert s[|pre| + 1..] == local;
  }

  /** An absolute IRI whose scheme is not a registered prefix loses the
      colon after its scheme: `http://x` becomes `http//x`. */
  lemma ExpandBreaksAbsoluteIri(rest: string, prefixes: map<string, string>)
    requires "http" !in prefixes
    ensures Expand("http:" + rest, prefixes) == "http" + rest
  {
    assert "http:" + rest == "http" + ":" + rest;
    ExpandPrefixed("http", rest, prefixes);
  }
}

=== FILE: engine.dfy ===
/** The conversion itself (csv2rdf.py:153-301): checks on the primary key
    and the catalogs, the primary-key index, the catalog pass, the row pass
    with its per-cell dispatch, and the deferred relation pass, from a
    loaded table to the set of triples added to the graph. */
module Engine {
  import opened Wrappers
  import opened Strings
  import opened Slug
  import opened Cells
  import opened Curie
  import opened Lexical
  import opened Rdf
  import opened Tables
  import opened Config
  import opened Identity
  import opened Template
  import opened Catalog

  /** A relation value whose target was not found: one `(subj, pred, key)`
      entry of `rel_buffer`. */
  datatype Pending = Pending(subj: string, pred: string, key: string)

  /** What a cell, a row or the row pass produces: triples added to the
      graph and relation values deferred to the second pass. */
  datatype Emission = Emission(triples: set<Triple>, pending: set<Pending>)

  const Nothing: Emission := Emission({}, {})

  /** Both emissions together. */
  function Combine(a: Emission, b: Emission): (c: Emission)
    ensures a.triples <= c.triples && b.triples <= c.triples
    ensures a.pending <= c.pending && b.pending <= c.pending
  {
    Emission(a.triples + b.triples, a.pending + b.pending)
  }

  /** `obj = pk_index.get(key); if obj:` — the key has an entry, and the
      entry is not the empty string. */
  predicate Resolves(index: map<string, string>, key: string) {
    key in index && index[key] != []
  }

  /** No deferred value of `e` resolves against `index`. */
  predicate Unresolved(e: Emission, index: map<string, string>) {
    forall p | p in e.pending :: !Resolves(index, p.key)
  }

  /** The errors a row can raise: those of the entity-template branch. */
  predicate RowError(e: Error) {
    e.LinkPredicateMissing? || e.MalformedPath?
  }

  /** The outcomes of the first `n` of `rs`, in order: the first failure,
      or all emissions together. */
  function Collect(rs: seq<Result<Emission, Error>>, n: nat, index: map<string, string>)
    : (r: Result<Emission, Error>)
    requires n <= |rs|
    ensures r.Failure? <==> exists k | 0 <= k < n :: rs[k].Failure?
    ensures r.Failure? ==>
      exists k | 0 <= k < n :: (rs[k] == Failure(r.error) && forall j | 0 <= j < k :: rs[j].Success?)
    ensures r.Success? ==> forall k | 0 <= k < n :: rs[k].value.triples <= r.value.triples
    ensures r.Success? && (forall k | 0 <= k < n && rs[k].Success? :: Unresolved(rs[k].value, index)) ==>
      Unresolved(r.value, index)
    ensures r.Failure? && (forall k | 0 <= k < n && rs[k].Failure? :: RowError(rs[k].error)) ==>
      RowError(r.error)
    ensures n == 0 ==> r == Success(Nothing)
  {
    if n == 0 then Success(Nothing)
    else
      match Collect(rs, n - 1, index)
      case Failure(e) => Failure(e)
      case Success(a) =>
        match rs[n - 1]
        case Failure(e) => Failure(e)
        case Success(b) => Success(Combine(a, b))
  }

  /** Conversely, collecting adds nothing of its own: every triple and every
      deferred value comes from one of the first `n` outcomes. */
  lemma {:induction false} CollectOnly(rs: seq<Result<Emission, Error>>, n: nat, index: map<string, string>)
    requires n <= |rs| && Collect(rs, n, index).Success?
    ensures forall t | t in Collect(rs, n, index).value.triples ::
      exists k | 0 <= k < n :: rs[k].Success? && t in rs[k].value.triples
    ensures forall p | p in Collect(rs, n, index).value.pending ::
      exists k | 0 <= k < n :: rs[k].Success? && p in rs[k].value.pending
  {
    if n > 0 {
      CollectOnly(rs, n - 1, index);
      var a := Collect(rs, n - 1, index).value;
      var b := rs[n - 1].value;
      assert Collect(rs, n, index).value == Combine(a, b);
      forall t | t in b.triples ensures exists k | 0 <= k < n :: rs[k].Success? && t in rs[k].value.triples {
        assert rs[n - 1].Success? && t in rs[n - 1].value.triples;
      }
      forall p | p in b.pending ensures exists k | 0 <= k < n :: rs[k].Success? && p in rs[k].value.pending {
        assert rs[n - 1].Success? && p in rs[n - 1].value.pending;
      }
    }
  }

  /** csv2rdf.py:278-286: each value of a relation cell either links the
      row to the subject indexed under it, or is deferred. */
  function RelationCell(env: Env, index: map<string, string>, subj: string, rel: RelationSpec, cell: string,
                        sep: string): (e: Emission)
    ensures var pred := Expand(rel.predicateCurie, env.prefixes);
      && (forall v | v in SplitCell(cell, sep) && Resolves(index, Trim(v)) ::
            Triple(subj, pred, Iri(index[Trim(v)])) in e.triples)
      && (forall v | v in SplitCell(cell, sep) && !Resolves(index, Trim(v)) ::
            Pending(subj, pred, Trim(v)) in e.pending)
      && (forall t | t in e.triples :: t.subj == subj && t.pred == pred &&
            exists k | k in index :: Resolves(index, k) && t.obj == Iri(index[k]))
      && (forall p | p in e.pending :: p.subj == subj && p.pred == pred)
    ensures Unresolved(e, index)
  {
    var pred := Expand(rel.predicateCurie, env.prefixes);
    var values := SplitCell(cell, sep);
    Emission(
      set v | v in values && Resolves(index, Trim(v)) :: Triple(subj, pred, Iri(index[Trim(v)])),
      set v | v in values && !Resolves(index, Trim(v)) :: Pending(subj, pred, Trim(v)))
  }

  /** Conversely, a relation cell links nothing and defers nothing but its
      own values: each triple is a value that resolves, each deferred entry
      one that does not. */
  lemma RelationCellOnly(env: Env, index: map<string, string>, subj: string, rel: RelationSpec, cell: string,
                         sep: string)
    ensures var pred := Expand(rel.predicateCurie, env.prefixes);
      var e := RelationCell(env, index, subj, rel, cell, sep);
      && (forall t | t in e.triples :: exists v | v in SplitCell(cell, sep) && Resolves(index, Trim(v)) ::
            t == Triple(subj, pred, Iri(index[Trim(v)])))
      && (forall p | p in e.pending :: exists v | v in SplitCell(cell, sep) && !Resolves(index, Trim(v)) ::
            p == Pending(subj, pred, Trim(v)))
  {
  }

  /** csv2rdf.py:289-290: the predicate of a plain literal column is its
      expanded `property_map` entry when that is set and not empty, and the
      column IRI otherwise. */
  function LiteralPredicate(env: Env, col: string): string {
    var curie := Lookup(env.cfg.propertyMap, col, "");
    if curie != [] then Expand(curie, env.prefixes) else SchemeIri(env.base, col)
  }

  /** csv2rdf.py:292-293: the datatype of a plain literal is the expanded
      override of its column when set, and otherwise what inference finds
      for the value, if anything. */
  function LiteralDatatype(env: Env, col: string, v: string, iso: string -> IsoParse): (r: Option<string>)
    ensures Lookup(env.cfg.datatypeOverrides, col, "") != [] ==>
      r == Some(Expand(env.cfg.datatypeOverrides[col], env.prefixes))
    ensures Lookup(env.cfg.datatypeOverrides, col, "") == [] ==>
      (r.None? <==> InferDatatype(v, iso).None?) &&
      (r.Some? ==> r.value == XsdIri(InferDatatype(v, iso).value))
  {
    var over := Lookup(env.cfg.datatypeOverrides, col, "");
    if over != [] then Some(Expand(over, env.prefixes))
    else match InferDatatype(v, iso)
      case None => None
      case Some(t) => Some(XsdIri(t))
  }

  /** csv2rdf.py:289-294: a plain column gives one untagged literal per
      value of the cell. */
  function LiteralCell(env: Env, subj: string, col: string, cell: string, iso: string -> IsoParse): (r: set<Triple>)
    ensures var values := SplitCell(cell, ColumnSeparator(env.cfg, col));
      && (forall v | v in values ::
            Triple(subj, LiteralPredicate(env, col), Literal(v, LiteralDatatype(env, col, v, iso), None)) in r)
      && (forall t | t in r :: t.subj == subj && t.pred == LiteralPredicate(env, col) &&
            t.obj.Literal? && t.obj.lang.None? && t.obj.lexical in values)
      && (forall t | t in r :: exists v | v in values ::
            t == Triple(subj, LiteralPredicate(env, col), Literal(v, LiteralDatatype(env, col, v, iso), None)))
  {
    var pred := LiteralPredicate(env, col);
    set v | v in SplitCell(cell, ColumnSeparator(env.cfg, col)) ::
      Triple(subj, pred, Literal(v, LiteralDatatype(env, col, v, iso), None))
  }

  /** csv2rdf.py:201-294 for one cell: the key column and empty cells are
      skipped; any other cell goes to exactly one branch, chosen by
      `Dispatch`. Only the template branch can fail, and only the relation
      branch defers values. */
  function CellOutput(env: Env, index: map<string, string>, row: Row, subj: string, col: string,
                      iso: string -> IsoParse): (r: Result<Emission, Error>)
    ensures col == env.cfg.primaryKey || Get(row, col) == [] ==> r == Success(Nothing)
    ensures !Dispatch(env.cfg, col).AsTemplate? ==> r.Success?
    ensures r.Success? ==> Unresolved(r.value, index)
    ensures r.Failure? ==> RowError(r.error)
    ensures r.Success? && !Dispatch(env.cfg, col).AsRelation? ==> r.value.pending == {}
    ensures r.Success? ==> forall t | t in r.value.triples :: t.subj == subj || StartsWith(t.subj, env.entityBase)
  {
    var cell := Get(row, col);
    if col == env.cfg.primaryKey || cell == [] then Success(Nothing)
    else
      match Dispatch(env.cfg, col)
      case AsTemplate(spec) =>
        (match TemplateCell(env, spec, row, subj, col)
         case Failure(e) => Failure(e)
         case Success(ts) => Success(Emission(ts, {})))
      case AsCatalog => Success(Emission(CatalogCell(env, subj, col, cell), {}))
      case AsRelation(rel) => Success(RelationCell(env, index, subj, rel, cell, ColumnSeparator(env.cfg, col)))
      case AsLiteral => Success(Emission(LiteralCell(env, subj, col, cell, iso), {}))
  }

  /** A cell that is not skipped has exactly the outcome of the one branch
      `Dispatch` chooses for its column. */
  lemma CellGoesToOneBranch(env: Env, index: map<string, string>, row: Row, subj: string, col: string,
                            iso: string -> IsoParse)
    requires col != env.cfg.primaryKey && Get(row, col) != []
    ensures var r := CellOutput(env, index, row, subj, col, iso);
      var cell := Get(row, col);
      match Dispatch(env.cfg, col)
      case AsTemplate(spec) =>
        && (r.Failure? <==> TemplateCell(env, spec, row, subj, col).Failure?)
        && (r.Failure? ==> r.error == TemplateCell(env, spec, row, subj, col).error)
        && (r.Success? ==> r.value == Emission(TemplateCell(env, spec, row, subj, col).value, {}))
      case AsCatalog => r == Success(Emission(CatalogCell(env, subj, col, cell), {}))
      case AsRelation(rel) => r == Success(RelationCell(env, index, subj, rel, cell, ColumnSeparator(env.cfg, col)))
      case AsLiteral => r == Success(Emission(LiteralCell(env, subj, col, cell, iso), {}))
  {
  }

  /** A column handled by an entity template emits only literals with the
      configured language; when that language is not empty they are all
      tagged, so none is one of the untagged literals the plain-literal
      branch would have produced for the same cell. */
  lemma TemplateColumnEmitsNoPlainLiteral(env: Env, index: map<string, string>, row: Row, subj: string, col: string,
                                          iso: string -> IsoParse)
    requires Dispatch(env.cfg, col).AsTemplate?
    requires CellOutput(env, index, row, subj, col, iso).Success?
    ensures forall t | t in CellOutput(env, index, row, subj, col, iso).value.triples && t.obj.Literal? ::
      t.obj.lang == LangTag(env.cfg.lang)
    ensures env.cfg.lang != [] ==>
      CellOutput(env, index, row, subj, col, iso).value.triples !! LiteralCell(env, subj, col, Get(row, col), iso)
  {
    if col != env.cfg.primaryKey && Get(row, col) != [] {
      CellGoesToOneBranch(env, index, row, subj, col, iso);
      TemplateCellTagsLiterals(env, Dispatch(env.cfg, col).spec, row, subj, col);
    }
  }

  /** The outcome of every column of a row, in column order. */
  function CellOutputs(env: Env, index: map<string, string>, row: Row, subj: string, columns: seq<string>,
                       iso: string -> IsoParse): (rs: seq<Result<Emission, Error>>)
    ensures |rs| == |columns|
    ensures forall k | 0 <= k < |columns| :: rs[k] == CellOutput(env, index, row, subj, columns[k], iso)
  {
    seq(|columns|, k requires 0 <= k < |columns| => CellOutput(env, index, row, subj, columns[k], iso))
  }

  /** The subject of a row: the IRI `pk_index` holds for its key. */
  function RowSubject(env: Env, row: Row): string {
    PkToUri(RowKey(row, env.cfg.primaryKey), env.base)
  }

  /** The default types of a row subject, one per configured class. */
  function ClassTriples(env: Env, subj: string): (r: set<Triple>)
    ensures forall c | c in env.classes :: Triple(subj, RdfType, Iri(Expand(c, env.prefixes))) in r
    ensures forall t | t in r ::
      t.subj == subj && t.pred == RdfType && exists c | c in env.classes :: t.obj == Iri(Expand(c, env.prefixes))
  {
    set c | c in env.classes :: Triple(subj, RdfType, Iri(Expand(c, env.prefixes)))
  }

  /** csv2rdf.py:193-294 for one row: a row with a blank key emits nothing;
      any other row gets its default types and then the output of each of
      its cells, the first failing cell stopping the conversion. */
  function RowOutput(env: Env, index: map<string, string>, columns: seq<string>, row: Row,
                     iso: string -> IsoParse): (r: Result<Emission, Error>)
    ensures RowKey(row, env.cfg.primaryKey) == [] ==> r == Success(Nothing)
    ensures r.Success? && RowKey(row, env.cfg.primaryKey) != [] ==>
      ClassTriples(env, RowSubject(env, row)) <= r.value.triples
    ensures RowKey(row, env.cfg.primaryKey) != [] ==>
      (r.Failure? <==> exists k | 0 <= k < |columns| ::
        CellOutput(env, index, row, RowSubject(env, row), columns[k], iso).Failure?)
    ensures r.Success? && RowKey(row, env.cfg.primaryKey) != [] ==>
      forall k | 0 <= k < |columns| ::
        CellOutput(env, index, row, RowSubject(env, row), columns[k], iso).value.triples <= r.value.triples
    ensures r.Success? ==> Unresolved(r.value, index)
    ensures r.Failure? ==> RowError(r.error)
  {
    if RowKey(row, env.cfg.primaryKey) == [] then Success(Nothing)
    else
      var subj := RowSubject(env, row);
      var rs := CellOutputs(env, index, row, subj, columns, iso);
      assert forall k | 0 <= k < |rs| ::
        (rs[k].Success? ==> Unresolved(rs[k].value, index)) && (rs[k].Failure? ==> RowError(rs[k].error)) by {
        forall k | 0 <= k < |rs|
          ensures (rs[k].Success? ==> Unresolved(rs[k].value, index)) && (rs[k].Failure? ==> RowError(rs[k].error))
        {
          assert rs[k] == CellOutput(env, index, row, subj, columns[k], iso);
        }
      }
      match Collect(rs, |rs|, index)
      case Failure(e) => Failure(e)
      case Success(e) => Success(Combine(Emission(ClassTriples(env, subj), {}), e))
  }

  /** Conversely, a row emits nothing but its default types and what its
      cells emit. */
  lemma RowOutputOnly(env: Env, index: map<string, string>, columns: seq<string>, row: Row, iso: string -> IsoParse)
    requires RowOutput(env, index, columns, row, iso).Success?
    ensures var subj := RowSubject(env, row);
      var e := RowOutput(env, index, columns, row, iso).value;
      && (forall t | t in e.triples :: t in ClassTriples(env, subj) || exists k | 0 <= k < |columns| ::
            CellOutput(env, index, row, subj, columns[k], iso).Success? &&
            t in CellOutput(env, index, row, subj, columns[k], iso).value.triples)
      && (forall p | p in e.pending :: exists k | 0 <= k < |columns| ::
            CellOutput(env, index, row, subj, columns[k], iso).Success? &&
            p in CellOutput(env, index, row, subj, columns[k], iso).value.pending)
  {
    if RowKey(row, env.cfg.primaryKey) != [] {
      var subj := RowSubject(env, row);
      var rs := CellOutputs(env, index, row, subj, columns, iso);
      CollectOnly(rs, |rs|, index);
    }
  }

  /** The outcome of every row, in table order. */
  function RowOutputs(env: Env, index: map<string, string>, table: Table, iso: string -> IsoParse)
    : (rs: seq<Result<Emission, Error>>)
    ensures |rs| == |table.rows|
    ensures forall i | 0 <= i < |table.rows| :: rs[i] == RowOutput(env, index, table.columns, table.rows[i], iso)
  {
    seq(|table.rows|, i requires 0 <= i < |table.rows| => RowOutput(env, index, table.columns, table.rows[i], iso))
  }

  /** csv2rdf.py:193-294: the row pass over the whole table. */
  function FirstPass(env: Env, index: map<string, string>, table: Table, iso: string -> IsoParse)
    : (r: Result<Emission, Error>)
    ensures r.Failure? <==> exists i | 0 <= i < |table.rows| ::
      RowOutput(env, index, table.columns, table.rows[i], iso).Failure?
    ensures r.Success? ==> forall i | 0 <= i < |table.rows| ::
      RowOutput(env, index, table.columns, table.rows[i], iso).value.triples <= r.value.triples
    ensures r.Success? ==> Unresolved(r.value, index)
    ensures r.Failure? ==> RowError(r.error)
  {
    var rs := RowOutputs(env, index, table, iso);
    assert forall i | 0 <= i < |rs| ::
      (rs[i].Success? ==> Unresolved(rs[i].value, index)) && (rs[i].Failure? ==> RowError(rs[i].error)) by {
      forall i | 0 <= i < |rs|
        ensures (rs[i].Success? ==> Unresolved(rs[i].value, index)) && (rs[i].Failure? ==> RowError(rs[i].error))
      {
        assert rs[i] == RowOutput(env, index, table.columns, table.rows[i], iso);
      }
    }
    Collect(rs, |rs|, index)
  }

  /** Conversely, the row pass emits nothing but what its rows emit. */
  lemma FirstPassOnly(env: Env, index: map<string, string>, table: Table, iso: string -> IsoParse)
    requires FirstPass(env, index, table, iso).Success?
    ensures var e := FirstPass(env, index, table, iso).value;
      && (forall t | t in e.triples :: exists i | 0 <= i < |table.rows| ::
            RowOutput(env, index, table.columns, table.rows[i], iso).Success? &&
            t in RowOutput(env, index, table.columns, table.rows[i], iso).value.triples)
      && (forall p | p in e.pending :: exists i | 0 <= i < |table.rows| ::
            RowOutput(env, index, table.columns, table.rows[i], iso).Success? &&
            p in RowOutput(env, index, table.columns, table.rows[i], iso).value.pending)
  {
    var rs := RowOutputs(env, index, table, iso);
    CollectOnly(rs, |rs|, index);
  }

  /** csv2rdf.py:297-301: the deferred pass links every buffered value whose
      key now resolves. */
  function Resolve(pending: set<Pending>, index: map<string, string>): (r: set<Triple>)
    ensures forall p | p in pending && Resolves(index, p.key) :: Triple(p.subj, p.pred, Iri(index[p.key])) in r
    ensures forall t | t in r :: exists p | p in pending :: Resolves(index, p.key) && t == Triple(p.subj, p.pred, Iri(index[p.key]))
  {
    set p | p in pending && Resolves(index, p.key) :: Triple(p.subj, p.pred, Iri(index[p.key]))
  }

  /** Resolving values none of which resolves adds nothing. */
  lemma ResolveUnresolved(e: Emission, index: map<string, string>)
    requires Unresolved(e, index)
    ensures Resolve(e.pending, index) == {}
  {
  }

  /** The first catalog column the table lacks, if any. */
  function MissingColumn(wanted: seq<string>, columns: seq<string>): (r: Option<string>)
    ensures r.None? <==> forall k | 0 <= k < |wanted| :: wanted[k] in columns
    ensures r.Some? ==> r.value !in columns
    ensures r.Some? ==>
      exists k | 0 <= k < |wanted| :: (wanted[k] == r.value && forall j | 0 <= j < k :: wanted[j] in columns)
  {
    if wanted == [] then None
    else if wanted[0] !in columns then Some(wanted[0])
    else
      var r := MissingColumn(wanted[1..], columns);
      assert forall k | 1 <= k < |wanted| :: wanted[k] == wanted[1..][k - 1];
      r
  }

  /** `csv_to_rdf` from the loaded table to the graph's triples: the primary
      key must name a column, every catalog must name a column, then the
      catalog pass, the row pass and the deferred pass. */
  function Convert(cfg: MappingConfig, table: Table, iso: string -> IsoParse): (r: Result<set<Triple>, Error>)
    ensures (cfg.primaryKey == [] || cfg.primaryKey !in table.columns) <==> r.Failure? && r.error.PrimaryKeyNotFound?
    ensures r.Failure? && r.error.PrimaryKeyNotFound? ==> r.error.key == cfg.primaryKey
    ensures cfg.primaryKey != [] && cfg.primaryKey in table.columns ==>
      ((exists k | 0 <= k < |cfg.catalogs| :: cfg.catalogs[k] !in table.columns) <==>
        r.Failure? && r.error.CatalogColumnNotFound?)
    ensures r.Success? ==>
      var env := Setup(cfg);
      CatalogTriples(env.base, cfg.lang, cfg.catalogs, table.rows) <= r.value
  {
    if cfg.primaryKey == [] || cfg.primaryKey !in table.columns then Failure(PrimaryKeyNotFound(cfg.primaryKey))
    else
      var env := Setup(cfg);
      CatalogsThenPasses(env, table, CatalogTriples(env.base, cfg.lang, cfg.catalogs, table.rows), iso)
  }

  /** Everything after the primary-key check, given the catalog pass's
      triples: the catalog columns must exist, then the two row passes. */
  function CatalogsThenPasses(env: Env, table: Table, catalogs: set<Triple>, iso: string -> IsoParse)
    : (r: Result<set<Triple>, Error>)
    ensures (exists k | 0 <= k < |env.cfg.catalogs| :: env.cfg.catalogs[k] !in table.columns) <==>
      r.Failure? && r.error.CatalogColumnNotFound?
    ensures r.Failure? ==> r.error.CatalogColumnNotFound? || RowError(r.error)
    ensures r.Failure? ==> !r.error.PrimaryKeyNotFound?
    ensures r.Success? ==> catalogs <= r.value
  {
    match MissingColumn(env.cfg.catalogs, table.columns)
    case Some(c) => Failure(CatalogColumnNotFound(c))
    case None => Passes(env, table, catalogs, iso)
  }

  /** The row pass and the deferred pass after the catalog pass has given
      `catalogs`: the graph keeps the catalog triples, and a failure comes
      from a row. */
  function Passes(env: Env, table: Table, catalogs: set<Triple>, iso: string -> IsoParse)
    : (r: Result<set<Triple>, Error>)
    ensures r.Failure? ==> RowError(r.error)
    ensures r.Success? ==> catalogs <= r.value
  {
    var index := BuildIndex(table.rows, env.cfg.primaryKey, env.base);
    match FirstPass(env, index, table, iso)
    case Failure(e) => Failure(e)
    case Success(e) => Success(catalogs + e.triples + Resolve(e.pending, index))
  }

  /** csv2rdf.py:171-175 and 194-197: the index holds every non-blank row
      key, and what it holds for it is the subject the row is given. */
  lemma RowSubjectIsIndexed(env: Env, rows: seq<Row>, i: nat)
    requires i < |rows| && RowKey(rows[i], env.cfg.primaryKey) != []
    ensures var index := BuildIndex(rows, env.cfg.primaryKey, env.base);
      var key := RowKey(rows[i], env.cfg.primaryKey);
      key in index && index[key] == RowSubject(env, rows[i])
  {
    assert HasKey(rows, env.cfg.primaryKey, RowKey(rows[i], env.cfg.primaryKey));
  }

  /** The index depends only on which keys occur, not on the order of the
      rows or on how often a key repeats: a later duplicate overwrites an
      entry with the same IRI. */
  lemma IndexDeterminedByKeys(rows1: seq<Row>, rows2: seq<Row>, pk: string, base: string)
    requires forall k :: HasKey(rows1, pk, k) <==> HasKey(rows2, pk, k)
    ensures BuildIndex(rows1, pk, base) == BuildIndex(rows2, pk, base)
  {
  }

  /** Every object a relation cell links to during the row pass is the
      subject of some row of the table. */
  lemma RelationTargetsAreRowSubjects(env: Env, rows: seq<Row>, subj: string, rel: RelationSpec, cell: string,
                                      sep: string, t: Triple)
    requires t in RelationCell(env, BuildIndex(rows, env.cfg.primaryKey, env.base), subj, rel, cell, sep).triples
    ensures exists i | 0 <= i < |rows| ::
      RowKey(rows[i], env.cfg.primaryKey) != [] && t.obj == Iri(RowSubject(env, rows[i]))
  {
    var index := BuildIndex(rows, env.cfg.primaryKey, env.base);
    var k :| k in index && t.obj == Iri(index[k]);
    var i := IndexedKeyHasRow(env, rows, k);
    assert t.obj == Iri(RowSubject(env, rows[i]));
  }

  /** Every entry of the index is the subject of a row with that key. */
  lemma IndexedKeyHasRow(env: Env, rows: seq<Row>, k: string) returns (i: nat)
    requires k in BuildIndex(rows, env.cfg.primaryKey, env.base)
    ensures i < |rows| && RowKey(rows[i], env.cfg.primaryKey) == k && k != []
    ensures BuildIndex(rows, env.cfg.primaryKey, env.base)[k] == RowSubject(env, rows[i])
  {
    i :| 0 <= i < |rows| && RowKey(rows[i], env.cfg.primaryKey) == k;
  }

  /** csv2rdf.py:297-301: since the index is complete before the row pass
      starts, a value deferred there stays unresolved, and the deferred pass
      adds no triple. The graph is the catalogs and the row pass alone. */
  lemma DeferredPassAddsNothing(cfg: MappingConfig, table: Table, iso: string -> IsoParse)
    requires Convert(cfg, table, iso).Success?
    ensures var env := Setup(cfg);
      var index := BuildIndex(table.rows, cfg.primaryKey, env.base);
      && FirstPass(env, index, table, iso).Success?
      && Convert(cfg, table, iso).value ==
         CatalogTriples(env.base, cfg.lang, cfg.catalogs, table.rows) + FirstPass(env, index, table, iso).value.triples
  {
    var env := Setup(cfg);
    var index := BuildIndex(table.rows, cfg.primaryKey, env.base);
    var catalogs := CatalogTriples(env.base, cfg.lang, cfg.catalogs, table.rows);
    assert MissingColumn(cfg.catalogs, table.columns).None?;
    assert Convert(cfg, table, iso) == Passes(env, table, catalogs, iso);
    var e := FirstPass(env, index, table, iso).value;
    assert Passes(env, table, catalogs, iso) == Success(catalogs + e.triples + Resolve(e.pending, index));
    ResolveUnresolved(e, index);
  }

  /** The row pass and the deferred pass fail exactly when the row pass
      does, and with its error. */
  lemma PassesFailsWithRowPass(env: Env, table: Table, catalogs: set<Triple>, iso: string -> IsoParse)
    ensures var index := BuildIndex(table.rows, env.cfg.primaryKey, env.base);
      && (Passes(env, table, catalogs, iso).Failure? <==> FirstPass(env, index, table, iso).Failure?)
      && (Passes(env, table, catalogs, iso).Failure? ==>
            Passes(env, table, catalogs, iso).error == FirstPass(env, index, table, iso).error)
  {
  }

  /** csv2rdf.py:190-301: once the key and the catalog columns are found, the
      conversion fails exactly when a row fails, with that row's error; the
      first exception of the row pass leaves `csv_to_rdf`. */
  lemma ConvertFailsWithRowPass(cfg: MappingConfig, table: Table, iso: string -> IsoParse)
    requires cfg.primaryKey != [] && cfg.primaryKey in table.columns
    requires forall k | 0 <= k < |cfg.catalogs| :: cfg.catalogs[k] in table.columns
    ensures var env := Setup(cfg);
      var index := BuildIndex(table.rows, cfg.primaryKey, env.base);
      && (Convert(cfg, table, iso).Failure? <==> FirstPass(env, index, table, iso).Failure?)
      && (Convert(cfg, table, iso).Failure? ==> Convert(cfg, table, iso).error == FirstPass(env, index, table, iso).error)
  {
    var env := Setup(cfg);
    var catalogs := CatalogTriples(env.base, cfg.lang, cfg.catalogs, table.rows);
    assert MissingColumn(cfg.catalogs, table.columns).None?;
    assert Convert(cfg, table, iso) == Passes(env, table, catalogs, iso);
    PassesFailsWithRowPass(env, table, catalogs, iso);
  }
}

=== FILE: identity.dfy ===
/** Row identity: `pk_to_uri` (csv2rdf.py:120-122) and the primary-key
    index built once before any triple is emitted (csv2rdf.py:171-175). */
module Identity {
  import opened Strings
  import opened Slug
  import opened Tables

  /** `s.startswith(("http://", "https://"))`. */
  predicate IsAbsolute(s: string) {
    StartsWith(s, "http://") || StartsWith(s, "https://")
  }

  /** `pk_to_uri(key, base)`: an absolute key is its own IRI; any other key
      becomes `base` followed by its slug. */
  function PkToUri(key: string, base: string): (r: string)
    ensures IsAbsolute(key) ==> r == key
    ensures !IsAbsolute(key) ==> |base| <= |r| && r[..|base|] == base && IsSlug(r[|base|..])
    ensures IsAbsolute(key) || IsAbsolute(base) ==> IsAbsolute(r)
  {
    if IsAbsolute(key) then key
    else
      var r := base + Safe(key);
      assert r[..|base|] == base && r[|base|..] == Safe(key);
      assert IsAbsolute(base) ==> r[..7] == base[..7] && (|base| >= 8 ==> r[..8] == base[..8]);
      r
  }

  /** Under an absolute base, a subject IRI maps to itself: identities
      derived from IRIs are stable. */
  lemma PkToUriIdempotent(key: string, base: string)
    requires IsAbsolute(base)
    ensures PkToUri(PkToUri(key, base), base) == PkToUri(key, base)
  {
  }

  /** The trimmed primary-key cell of a row. */
  function RowKey(row: Row, pk: string): string {
    Trim(Get(row, pk))
  }

  /** Some row of `rows` has the trimmed primary key `k`. */
  predicate HasKey(rows: seq<Row>, pk: string, k: string) {
    exists i | 0 <= i < |rows| :: RowKey(rows[i], pk) == k
  }

  /** A key occurs in a table exactly when it occurs in all rows but the
      last, or in the last row. */
  lemma HasKeyLast(rows: seq<Row>, pk: string)
    requires rows != []
    ensures forall k :: HasKey(rows, pk, k) <==>
      HasKey(rows[..|rows| - 1], pk, k) || RowKey(rows[|rows| - 1], pk) == k
  {
    var n := |rows| - 1;
    forall k ensures HasKey(rows, pk, k) <==> HasKey(rows[..n], pk, k) || RowKey(rows[n], pk) == k {
      if HasKey(rows[..n], pk, k) {
        var i :| 0 <= i < n && RowKey(rows[..n][i], pk) == k;
        assert rows[..n][i] == rows[i];
      }
      if HasKey(rows, pk, k) && RowKey(rows[n], pk) != k {
        var i :| 0 <= i < |rows| && RowKey(rows[i], pk) == k;
        assert rows[..n][i] == rows[i];
      }
    }
  }

  /** The primary-key index: a dictionary comprehension over the rows in
      order, so a later row with the same key overwrites an earlier one. Its
      keys are exactly the non-empty trimmed keys of the table, and each
      maps to that key's subject IRI. */
  function BuildIndex(rows: seq<Row>, pk: string, base: string): (index: map<string, string>)
    ensures forall k :: k in index <==> k != [] && HasKey(rows, pk, k)
    ensures forall k | k in index :: index[k] == PkToUri(k, base)
  {
    if rows == [] then map[]
    else
      var n := |rows| - 1;
      var k := RowKey(rows[n], pk);
      HasKeyLast(rows, pk);
      if k != [] then BuildIndex(rows[..n], pk, base)[k := PkToUri(k, base)]
      else BuildIndex(rows[..n], pk, base)
  }

  /** Every subject in the index is a non-empty IRI once the base is
      non-empty, so the code's truth test on a looked-up subject is the
      same as membership. */
  lemma IndexSubjectsNonEmpty(rows: seq<Row>, pk: string, base: string)
    requires base != []
    ensures forall k :: k in BuildIndex(rows, pk, base) ==> BuildIndex(rows, pk, base)[k] != []
  {
    forall k | k in BuildIndex(rows, pk, base)
      ensures BuildIndex(rows, pk, base)[k] != []
    {
      if IsAbsolute(k) {
        assert |k| >= 7;
      }
    }
  }
}

=== FILE: lexical.dfy ===
/** The lexical patterns behind datatype inference (csv2rdf.py:104-117 and
    app.py:77-89), over ASCII digits, and the `infer_datatype` classifier. */
module Lexical {
  import opened Wrappers
  import opened Strings

  /** `\d+`. */
  predicate IsDigits(s: string) {
    |s| > 0 && forall i :: 0 <= i < |s| ==> IsDigit(s[i])
  }

  /** What follows an optional leading minus sign (`-?`). */
  function Unsigned(s: string): (r: string)
    ensures |s| > 0 && s[0] == '-' ==> r == s[1..]
    ensures (|s| == 0 || s[0] != '-') ==> r == s
  {
    if |s| > 0 && s[0] == '-' then s[1..] else s
  }

  /** Full match of `-?\d+`. */
  predicate IsIntegerLexical(s: string) {
    IsDigits(Unsigned(s))
  }

  /** Full match of `-?\d+\.\d+`: digits, one dot, digits. */
  predicate IsDecimalLexical(s: string) {
    var b := Unsigned(s);
    exists k | 0 < k < |b| - 1 :: b[k] == '.' && IsDigits(b[..k]) && IsDigits(b[k + 1..])
  }

  /** `s.lower() in ("true", "false")`. */
  predicate IsBooleanLexical(s: string) {
    Lower(s) == "true" || Lower(s) == "false"
  }

  /** Full match of `\d{4}-\d{2}-\d{2}`. */
  predicate IsDateLexical(s: string) {
    |s| == 10 && s[4] == '-' && s[7] == '-'
    && IsDigits(s[..4]) && IsDigits(s[5..7]) && IsDigits(s[8..])
  }

  /** Full match of `\d{4}`. */
  predicate IsYearLexical(s: string) {
    |s| == 4 && IsDigits(s)
  }

  /** An integer has no dot, so it is never a decimal. */
  lemma IntegerIsNotDecimal(s: string)
    requires IsIntegerLexical(s)
    ensures !IsDecimalLexical(s)
  {
    var b := Unsigned(s);
    forall k | 0 < k < |b| - 1
      ensures b[k] != '.'
    {
      assert IsDigit(b[k]);
    }
  }

  /** Numbers are made of digits, `-` and `.`, none of which `lower()`
      changes, so no number reads as a boolean. */
  lemma NumberIsNotBoolean(s: string)
    requires IsIntegerLexical(s) || IsDecimalLexical(s)
    ensures !IsBooleanLexical(s)
  {
    var b := Unsigned(s);
    assert |s| > 0;
    if s[0] == '-' {
      assert Lower(s)[0] == '-';
    } else if IsIntegerLexical(s) {
      assert IsDigit(Lower(s)[0]);
    } else {
      var k :| 0 < k < |b| - 1 && b[k] == '.' && IsDigits(b[..k]) && IsDigits(b[k + 1..]);
      assert b[..k][0] == s[0];
      assert IsDigit(Lower(s)[0]);
    }
  }

  /** A leading `+`, a leading `.` or a trailing `.` is never part of an
      integer or a decimal: `+5`, `.5` and `1.` stay strings. */
  lemma SignAndBareDotAreNotNumbers(s: string)
    requires |s| > 0 && (s[0] == '+' || s[0] == '.' || s[|s| - 1] == '.')
    ensures !IsIntegerLexical(s) && !IsDecimalLexical(s)
  {
    var b := Unsigned(s);
    if |b| > 0 {
      assert b[|b| - 1] == s[|s| - 1];
      assert s[0] != '-' ==> b[0] == s[0];
    }
    if k :| 0 < k < |b| - 1 && b[k] == '.' && IsDigits(b[..k]) && IsDigits(b[k + 1..]) {
      assert b[..k][0] == b[0];
      assert b[k + 1..][|b| - k - 2] == b[|b| - 1];
    }
  }

  /** What `datetime.fromisoformat` makes of a string: no date at all, a
      date-time at midnight, or one with a non-midnight time. */
  datatype IsoParse = Unparsable | AtMidnight | WithTime

  /** The XSD datatypes `infer_datatype` can return. */
  datatype Xsd = XsdInteger | XsdDecimal | XsdBoolean | XsdDate | XsdDateTime

  const XsdNamespace: string := "http://www.w3.org/2001/XMLSchema#"

  /** The IRI of an XSD datatype, as rdflib's `XSD` namespace spells it. */
  function XsdIri(t: Xsd): (iri: string)
    ensures |iri| > |XsdNamespace| && iri[..|XsdNamespace|] == XsdNamespace
  {
    XsdNamespace + match t
      case XsdInteger => "integer"
      case XsdDecimal => "decimal"
      case XsdBoolean => "boolean"
      case XsdDate => "date"
      case XsdDateTime => "dateTime"
  }

  /** `infer_datatype(value)`: classify the trimmed value by the first
      matching rule among integer, decimal, boolean and the ISO parse
      (date when the parsed time is midnight, dateTime otherwise). */
  function InferDatatype(value: string, iso: string -> IsoParse): (r: Option<Xsd>)
    ensures var v := Trim(value);
      && (r == Some(XsdInteger) <==> IsIntegerLexical(v))
      && (r == Some(XsdDecimal) <==> IsDecimalLexical(v))
      && (r == Some(XsdBoolean) <==> IsBooleanLexical(v) && !IsIntegerLexical(v) && !IsDecimalLexical(v))
      && (r == Some(XsdDate) <==>
            !IsIntegerLexical(v) && !IsDecimalLexical(v) && !IsBooleanLexical(v) && iso(v) == AtMidnight)
      && (r == Some(XsdDateTime) <==>
            !IsIntegerLexical(v) && !IsDecimalLexical(v) && !IsBooleanLexical(v) && iso(v) == WithTime)
      && (r == None <==>
            !IsIntegerLexical(v) && !IsDecimalLexical(v) && !IsBooleanLexical(v) && iso(v) == Unparsable)
  {
    var v := Trim(value);
    if IsIntegerLexical(v) then
      IntegerIsNotDecimal(v);
      Some(XsdInteger)
    else if IsDecimalLexical(v) then Some(XsdDecimal)
    else if IsBooleanLexical(v) then Some(XsdBoolean)
    else match iso(v)
      case Unparsable => None
      case AtMidnight => Some(XsdDate)
      case WithTime => Some(XsdDateTime)
  }

  /** The inferred datatype depends only on the trimmed value. */
  lemma InferDatatypeIgnoresPadding(value: string, iso: string -> IsoParse)
    ensures InferDatatype(value, iso) == InferDatatype(Trim(value), iso)
  {
    TrimIdempotent(value);
  }
}

=== FILE: pathtemplate.dfy ===
/** The child path template of an entity template (csv2rdf.py:231-236),
    filled in by `str.format` with the keywords `value`, `safe_value` and
    `id`. Only the fields the converter supplies are modelled: a
    replacement field is one of the three names in braces, and `{{` and
    `}}` stand for literal braces. */
module PathTemplate {
  import opened Wrappers
  import opened Strings

  /** One parsed element of a template: a literal character or one of the
      three replacement fields. */
  datatype Piece =
    | Text(c: char)
    | ValueField
    | SafeValueField
    | IdField

  /** Put `p` in front of a parse, propagating failure. */
  function Prepend(p: Piece, rest: Option<seq<Piece>>): (r: Option<seq<Piece>>)
    ensures r.Some? <==> rest.Some?
    ensures r.Some? ==> r.value == [p] + rest.value
  {
    match rest
    case None => None
    case Some(ps) => Some([p] + ps)
  }

  /** The format string split into pieces; `None` for anything `str.format`
      would reject or look up under a name the converter does not pass (a
      lone `}`, an unterminated or unknown field). */
  function ParsePath(t: string): (r: Option<seq<Piece>>)
    decreases |t|
  {
    if t == [] then Some([])
    else if t[0] == '{' then
      if |t| >= 2 && t[1] == '{' then Prepend(Text('{'), ParsePath(t[2..]))
      else if StartsWith(t, "{value}") then Prepend(ValueField, ParsePath(t[7..]))
      else if StartsWith(t, "{safe_value}") then Prepend(SafeValueField, ParsePath(t[12..]))
      else if StartsWith(t, "{id}") then Prepend(IdField, ParsePath(t[4..]))
      else None
    else if t[0] == '}' then
      if |t| >= 2 && t[1] == '}' then Prepend(Text('}'), ParsePath(t[2..])) else None
    else Prepend(Text(t[0]), ParsePath(t[1..]))
  }

  /** The source text of one piece: braces doubled, fields in braces. */
  function PieceText(p: Piece): string {
    match p
    case Text(c) => if c == '{' then "{{" else if c == '}' then "}}" else [c]
    case ValueField => "{value}"
    case SafeValueField => "{safe_value}"
    case IdField => "{id}"
  }

  /** The format string that spells a sequence of pieces. */
  function Unparse(ps: seq<Piece>): string {
    if ps == [] then [] else PieceText(ps[0]) + Unparse(ps[1..])
  }

  /** Parsing reads the spelling of one piece off the front of a template. */
  lemma ParsePiece(p: Piece, rest: string)
    ensures ParsePath(PieceText(p) + rest) == Prepend(p, ParsePath(rest))
  {
    var t := PieceText(p) + rest;
    match p {
      case Text(c) =>
        if c == '{' || c == '}' {
          assert t[2..] == rest;
        } else {
          assert t[1..] == rest;
        }
      case ValueField =>
        assert StartsWith(t, "{value}") by { assert t[..7] == "{value}"; }
        assert t[7..] == rest;
      case SafeValueField =>
        assert !StartsWith(t, "{value}") by { assert t[1] == 's'; }
        assert StartsWith(t, "{safe_value}") by { assert t[..12] == "{safe_value}"; }
        assert t[12..] == rest;
      case IdField =>
        assert !StartsWith(t, "{value}") by { assert t[1] == 'i'; }
        assert !StartsWith(t, "{safe_value}") by { assert t[1] == 'i'; }
        assert StartsWith(t, "{id}") by { assert t[..4] == "{id}"; }
        assert t[4..] == rest;
    }
  }

  /** Parsing a spelt-out template gives back its pieces. */
  lemma {:induction false} ParseUnparse(ps: seq<Piece>)
    ensures ParsePath(Unparse(ps)) == Some(ps)
  {
    if ps != [] {
      ParseUnparse(ps[1..]);
      ParsePiece(ps[0], Unparse(ps[1..]));
      assert ps == [ps[0]] + ps[1..];
    }
  }

  /** Every template that parses is the spelling of its pieces, so a
      template and its parse determine each other. */
  lemma {:induction false} UnparseParse(t: string)
    requires ParsePath(t).Some?
    ensures Unparse(ParsePath(t).value) == t
    decreases |t|
  {
    if t != [] {
      if t[0] == '{' {
        if |t| >= 2 && t[1] == '{' {
          UnparseParse(t[2..]);
          assert t == "{{" + t[2..];
        } else if StartsWith(t, "{value}") {
          UnparseParse(t[7..]);
          assert t == "{value}" + t[7..];
        } else if StartsWith(t, "{safe_value}") {
          UnparseParse(t[12..]);
          assert t == "{safe_value}" + t[12..];
        } else {
          UnparseParse(t[4..]);
          assert t == "{id}" + t[4..];
        }
      } else if t[0] == '}' {
        UnparseParse(t[2..]);
        assert t == "}}" + t[2..];
      } else {
        UnparseParse(t[1..]);
        assert t == [t[0]] + t[1..];
      }
    }
  }

  /** Substitute the three values into the parsed template. */
  function Render(ps: seq<Piece>, value: string, safeValue: string, id: string): string {
    if ps == [] then []
    else Fill(ps[0], value, safeValue, id) + Render(ps[1..], value, safeValue, id)
  }

  /** What one piece contributes to the rendered path. */
  function Fill(p: Piece, value: string, safeValue: string, id: string): string {
    match p
    case Text(c) => [c]
    case ValueField => value
    case SafeValueField => safeValue
    case IdField => id
  }

  /** Rendering a piece followed by more pieces. */
  lemma RenderCons(p: Piece, ps: seq<Piece>, value: string, safeValue: string, id: string)
    ensures Render([p] + ps, value, safeValue, id) == Fill(p, value, safeValue, id) + Render(ps, value, safeValue, id)
  {
    assert ([p] + ps)[1..] == ps;
  }

  /** `path.format(value=…, safe_value=…, id=…)`: the filled-in path, or
      `None` when the template is malformed. */
  function FormatPath(t: string, value: string, safeValue: string, id: string): (r: Option<string>)
    ensures r.Some? <==> ParsePath(t).Some?
  {
    match ParsePath(t)
    case None => None
    case Some(ps) => Some(Render(ps, value, safeValue, id))
  }

  /** A template without braces is a fixed path: every value renders to the
      template itself. */
  lemma {:induction false} BracelessPathIsFixed(t: string, value: string, safeValue: string, id: string)
    requires '{' !in t && '}' !in t
    ensures FormatPath(t, value, safeValue, id) == Some(t)
    decreases |t|
  {
    if t != [] {
      BracelessPathIsFixed(t[1..], value, safeValue, id);
      assert t == [t[0]] + t[1..];
    }
  }

  /** The default template `{safe_value}` renders to the safe value. */
  lemma DefaultPathIsSafeValue(value: string, safeValue: string, id: string)
    ensures FormatPath("{safe_value}", value, safeValue, id) == Some(safeValue)
  {
    ParsePiece(SafeValueField, "");
    assert PieceText(SafeValueField) + "" == "{safe_value}";
    assert [SafeValueField] + [] == [SafeValueField];
    RenderCons(SafeValueField, [], value, safeValue, id);
    assert safeValue + [] == safeValue;
  }

  /** A field appended to a fixed prefix renders after that prefix, as in
      `works/{id}`. */
  lemma {:induction false} PrefixThenId(prefix: string, value: string, safeValue: string, id: string)
    requires '{' !in prefix && '}' !in prefix
    ensures FormatPath(prefix + "{id}", value, safeValue, id) == Some(prefix + id)
    decreases |prefix|
  {
    if prefix == [] {
      ParsePiece(IdField, "");
      assert PieceText(IdField) + "" == "{id}";
      assert [IdField] + [] == [IdField];
      RenderCons(IdField, [], value, safeValue, id);
      assert id + [] == id;
      assert prefix + "{id}" == "{id}" && prefix + id == id;
    } else {
      var rest := prefix[1..] + "{id}";
      PrefixThenId(prefix[1..], value, safeValue, id);
      ParsePiece(Text(prefix[0]), rest);
      assert prefix + "{id}" == PieceText(Text(prefix[0])) + rest;
      RenderCons(Text(prefix[0]), ParsePath(rest).value, value, safeValue, id);
      assert prefix + id == [prefix[0]] + (prefix[1..] + id);
    }
  }

  /** A lone closing brace is rejected, wherever the field names are. */
  lemma LoneCloseBraceRejected(t: string, value: string, safeValue: string, id: string)
    requires t == "}" || (|t| >= 2 && t[0] == '}' && t[1] != '}')
    ensures FormatPath(t, value, safeValue, id) == None
  {
  }
}

=== FILE: profile.dfy ===
/** The column-profiling heuristics of the configuration wizard
    (app.py:68-116): guessing the delimiter, a datatype per column, the
    multivalued columns and the primary key. A data-frame column is its
    name and its cells, `None` standing for a missing value. */
module Profile {
  import opened Wrappers
  import opened Strings
  import opened Lexical

  /** `SEP_CANDIDATES`, in the order they are tried. */
  const SepCandidates: seq<char> := [',', ';', '\t', '|']

  /** `sample.split("\n")[0]`. */
  function FirstLine(sample: string): string {
    Split(sample, "\n")[0]
  }

  /** `len(line.split(sep))`. */
  function FieldCount(line: string, sep: char): (n: nat)
    ensures n >= 1
  {
    |Split(line, [sep])|
  }

  /** The scan of `sniff_delimiter` over candidate counts: starting from
      a best count of 0, only a strictly larger count replaces the best, so
      the result is the first position of a largest count. */
  method FirstLargest(counts: seq<nat>) returns (at: nat)
    requires counts != []
    ensures at < |counts|
    ensures forall k | 0 <= k < |counts| :: counts[k] <= counts[at]
    ensures forall k | 0 <= k < at :: counts[k] < counts[at]
  {
    var cols: nat := 0;
    at := 0;
    for i := 0 to |counts|
      invariant at < |counts|
      invariant i == 0 ==> cols == 0 && at == 0
      invariant i > 0 ==> at < i && cols == counts[at]
      invariant forall k | 0 <= k < i :: counts[k] <= cols
      invariant forall k | 0 <= k < at :: counts[k] < cols
    {
      if counts[i] > cols {
        cols, at := counts[i], i;
      }
    }
  }

  /** `sniff_delimiter(sample)`: the candidate that splits the first line
      into the most fields; ties go to the candidate tried first. */
  method SniffDelimiter(sample: string) returns (best: char)
    ensures var line := FirstLine(sample);
      exists j | 0 <= j < |SepCandidates| ::
        && best == SepCandidates[j]
        && (forall k | 0 <= k < |SepCandidates| :: FieldCount(line, SepCandidates[k]) <= FieldCount(line, best))
        && (forall k | 0 <= k < j :: FieldCount(line, SepCandidates[k]) < FieldCount(line, best))
  {
    var line := FirstLine(sample);
    var counts: seq<nat> := [FieldCount(line, ','), FieldCount(line, ';'), FieldCount(line, '\t'), FieldCount(line, '|')];
    assert forall k | 0 <= k < |SepCandidates| :: FieldCount(line, SepCandidates[k]) == counts[k];
    var at := FirstLargest(counts);
    best := SepCandidates[at];
    assert FieldCount(line, best) == counts[at];
  }

  /** The type names `infer_cell_type` returns. */
  datatype CellType = IntegerCell | DecimalCell | BooleanCell | DateCell | GYearCell | StringCell

  /** `infer_cell_type(s)`: the first matching pattern of the trimmed cell,
      in the order integer, decimal, boolean, date, year. The date pattern
      is purely lexical. */
  function InferCellType(s: string): (r: CellType)
    ensures var v := Trim(s);
      && (r == IntegerCell <==> IsIntegerLexical(v))
      && (r == DecimalCell <==> IsDecimalLexical(v))
      && (r == BooleanCell <==> IsBooleanLexical(v) && !IsIntegerLexical(v) && !IsDecimalLexical(v))
      && (r == DateCell <==> IsDateLexical(v) && !IsIntegerLexical(v) && !IsDecimalLexical(v) && !IsBooleanLexical(v))
      && (r == StringCell <==>
            !IsIntegerLexical(v) && !IsDecimalLexical(v) && !IsBooleanLexical(v) && !IsDateLexical(v) && !IsYearLexical(v))
  {
    var v := Trim(s);
    if IsIntegerLexical(v) then
      IntegerIsNotDecimal(v);
      IntegerCell
    else if IsDecimalLexical(v) then DecimalCell
    else if IsBooleanLexical(v) then BooleanCell
    else if IsDateLexical(v) then DateCell
    else if IsYearLexical(v) then GYearCell
    else StringCell
  }

  /** A four-digit string already matches the integer pattern, so the year
      branch is dead: `"gYear"` is never inferred. */
  lemma NeverGYear(s: string)
    ensures InferCellType(s) != GYearCell
  {
    var v := Trim(s);
    if IsYearLexical(v) {
      assert Unsigned(v) == v;
    }
  }

  /** The date test checks the shape only: any trimmed string of the
      shape `dddd-dd-dd`, such as `2024-99-99`, reads as a date. */
  lemma DateIsLexicalOnly(s: string)
    requires IsTrimmed(s) && IsDateLexical(s)
    ensures InferCellType(s) == DateCell
  {
    assert s[..4][0] == s[0];
    assert Unsigned(s) == s;
    assert !IsIntegerLexical(s) by { assert !IsDigit(s[4]); }
    assert !IsDecimalLexical(s) by {
      forall k | 0 < k < |s| - 1
        ensures s[k] != '.'
      {
        if k < 4 {
          assert s[..4][k] == s[k];
        } else if 4 < k < 7 {
          assert s[5..7][k - 5] == s[k];
        } else if k > 7 {
          assert s[8..][k - 8] == s[k];
        }
      }
    }
    assert !IsBooleanLexical(s) by { assert Lower(s)[0] == s[0]; }
  }

  /** The cell classifier agrees with the converter's datatype inference on
      the three types both recognise, whatever the ISO parse does. */
  lemma CellTypeAgreesWithDatatype(s: string, iso: string -> IsoParse)
    ensures InferCellType(s) == IntegerCell <==> InferDatatype(s, iso) == Some(XsdInteger)
    ensures InferCellType(s) == DecimalCell <==> InferDatatype(s, iso) == Some(XsdDecimal)
    ensures InferCellType(s) == BooleanCell <==> InferDatatype(s, iso) == Some(XsdBoolean)
  {
  }

  /** `XSD_MAP[t]` for the types `infer_column_types` looks up; a column
      whose main type is a string is never looked up. */
  function XsdCurie(t: CellType): (r: string)
    requires t != StringCell
  {
    match t
    case IntegerCell => "xsd:integer"
    case DecimalCell => "xsd:decimal"
    case BooleanCell => "xsd:boolean"
    case DateCell => "xsd:date"
    case GYearCell => "xsd:gYear"
  }

  /** The earliest position among the first `n` whose element is most
      frequent in `xs`: `Counter.most_common(1)` keeps the first-seen of
      equally frequent elements. */
  function Leader<T(==)>(xs: seq<T>, n: nat): (r: nat)
    requires 0 < n <= |xs|
    ensures r < n
    ensures forall j | 0 <= j < n :: multiset(xs)[xs[j]] <= multiset(xs)[xs[r]]
    ensures forall j | 0 <= j < r :: multiset(xs)[xs[j]] < multiset(xs)[xs[r]]
  {
    if n == 1 then 0
    else
      var b := Leader(xs, n - 1);
      if multiset(xs)[xs[n - 1]] > multiset(xs)[xs[b]] then n - 1 else b
  }

  /** `types.most_common(1)[0][0]`: the most frequent element, the first
      seen among equally frequent ones. */
  function MostCommon<T(==)>(xs: seq<T>): (r: T)
    requires xs != []
    ensures r in xs
    ensures forall x | x in xs :: multiset(xs)[x] <= multiset(xs)[r]
    ensures exists j | 0 <= j < |xs| :: xs[j] == r && forall i | 0 <= i < j :: multiset(xs)[xs[i]] < multiset(xs)[r]
  {
    var r := Leader(xs, |xs|);
    assert forall x | x in xs :: exists j | 0 <= j < |xs| :: xs[j] == x;
    xs[r]
  }

  /** The present cells of a column, in order (`dropna()`). */
  function Present(cells: seq<Option<string>>): (r: seq<string>)
    ensures |r| == |cells| - multiset(cells)[None]
    ensures forall s :: s in r <==> Some(s) in cells
  {
    if cells == [] then []
    else
      var rest := Present(cells[1..]);
      assert forall c | c in cells :: c == cells[0] || c in cells[1..];
      assert multiset(cells) == multiset([cells[0]]) + multiset(cells[1..]) by {
        assert cells == [cells[0]] + cells[1..];
      }
      match cells[0]
      case None => rest
      case Some(s) => [s] + rest
  }

  /** The cells `dropna()` keeps of one cell: its value when present. */
  function Kept1(c: Option<string>): seq<string> {
    match c
    case None => []
    case Some(s) => [s]
  }

  /** A cell in front is kept exactly when it is present, before the kept
      cells of the rest. */
  lemma PresentCons(c: Option<string>, y: seq<Option<string>>)
    ensures Present([c] + y) == Kept1(c) + Present(y)
  {
    assert ([c] + y)[0] == c && ([c] + y)[1..] == y;
  }

  /** `dropna()` works piecewise: the kept cells of a concatenation are
      those of each part, in order. With `PresentCons` this determines the
      result: the present values in their original order. */
  lemma {:induction false} PresentConcat(a: seq<Option<string>>, b: seq<Option<string>>)
    ensures Present(a + b) == Present(a) + Present(b)
  {
    if a == [] {
      assert a + b == b;
    } else {
      ConsConcat(a, b);
      PresentCons(a[0], a[1..] + b);
      PresentConcat(a[1..], b);
      ConcatAssoc(Kept1(a[0]), Present(a[1..]), Present(b));
    }
  }

  /** `dropna()` keeps every present value as often as it occurs. */
  lemma {:induction false} PresentCounts(cells: seq<Option<string>>, s: string)
    ensures multiset(Present(cells))[s] == multiset(cells)[Some(s)]
  {
    if cells != [] {
      var c, rest := cells[0], cells[1..];
      PresentCounts(rest, s);
      assert cells == [c] + rest;
      PresentCons(c, rest);
      assert multiset(cells)[Some(s)] == multiset([c])[Some(s)] + multiset(rest)[Some(s)];
      assert multiset(Present(cells))[s] == multiset(Kept1(c))[s] + multiset(Present(rest))[s];
      match c
      case None =>
        assert multiset(Kept1(c))[s] == 0 == multiset([c])[Some(s)];
      case Some(v) =>
        assert multiset(Kept1(c))[s] == (if v == s then 1 else 0) == multiset([c])[Some(s)];
    }
  }

  /** `head(n)`. */
  function Head<T>(xs: seq<T>, n: nat): (r: seq<T>)
    ensures |r| == if |xs| <= n then |xs| else n
    ensures r <= xs
  {
    if |xs| <= n then xs else xs[..n]
  }

  /** The types of a sequence of cells. */
  function CellTypes(cells: seq<string>): (ts: seq<CellType>)
    ensures |ts| == |cells|
    ensures forall i | 0 <= i < |cells| :: ts[i] == InferCellType(cells[i])
  {
    seq(|cells|, i requires 0 <= i < |cells| => InferCellType(cells[i]))
  }

  /** The first 100 present cells of a column. */
  function TypeSample(cells: seq<Option<string>>): seq<string> {
    Head(Present(cells), 100)
  }

  /** app.py:95-101 for one column: the override it gets, if any. A column
      gets one when its sample is not empty and its most common type is not
      a string and covers strictly more than 80% of the sample (`freq / len
      > 0.8`, exact in floating point for samples of at most 100 cells). */
  function ColumnOverride(cells: seq<Option<string>>): (r: Option<string>)
    ensures var sample := TypeSample(cells);
      r.Some? <==>
        && sample != []
        && var ts := CellTypes(sample);
           MostCommon(ts) != StringCell && 5 * multiset(ts)[MostCommon(ts)] > 4 * |sample|
    ensures r.Some? ==> r.value in {"xsd:integer", "xsd:decimal", "xsd:boolean", "xsd:date"}
    ensures r.Some? ==> r.value == XsdCurie(MostCommon(CellTypes(TypeSample(cells))))
  {
    var sample := TypeSample(cells);
    if sample == [] then None
    else
      var ts := CellTypes(sample);
      var main := MostCommon(ts);
      var freq := multiset(ts)[main];
      if main != StringCell && 5 * freq > 4 * |sample| then
        var i :| 0 <= i < |ts| && ts[i] == main;
        NeverGYear(sample[i]);
        Some(XsdCurie(main))
      else None
  }

  /** Two different elements together occur at most as often as the
      sequence is long. */
  lemma {:induction false} TwoCounts<T>(xs: seq<T>, a: T, b: T)
    requires a != b
    ensures multiset(xs)[a] + multiset(xs)[b] <= |xs|
  {
    if xs != [] {
      TwoCounts(xs[1..], a, b);
      assert xs == [xs[0]] + xs[1..];
      assert multiset(xs) == multiset([xs[0]]) + multiset(xs[1..]);
    }
  }

  /** The override is decided by the majority: when one type other than
      string is inferred for strictly more than 80% of the sample, the
      column is typed with it, whatever the other cells are. */
  lemma MajorityTypeDecides(cells: seq<Option<string>>, t: CellType)
    requires t != StringCell
    requires 5 * multiset(CellTypes(TypeSample(cells)))[t] > 4 * |TypeSample(cells)|
    ensures ColumnOverride(cells) == Some(XsdCurie(t))
  {
    var ts := CellTypes(TypeSample(cells));
    assert ts != [];
    var m := MostCommon(ts);
    if m != t {
      assert t in ts;
      TwoCounts(ts, m, t);
      assert false;
    }
  }

  /** A column whose sampled cells are all integers is typed
      `xsd:integer`. */
  lemma IntegerColumn(cells: seq<Option<string>>)
    requires TypeSample(cells) != []
    requires forall s | s in TypeSample(cells) :: IsIntegerLexical(Trim(s))
    ensures ColumnOverride(cells) == Some("xsd:integer")
  {
    var sample := TypeSample(cells);
    var ts := CellTypes(sample);
    assert forall i | 0 <= i < |ts| :: ts[i] == IntegerCell;
    assert ts == seq(|sample|, i => IntegerCell);
    assert MostCommon(ts) == IntegerCell;
    assert multiset(ts)[IntegerCell] == |ts| by { AllSame(ts, IntegerCell); }
  }

  /** A sequence of one repeated element holds it as often as it is long. */
  lemma {:induction false} AllSame<T>(xs: seq<T>, x: T)
    requires forall i | 0 <= i < |xs| :: xs[i] == x
    ensures multiset(xs)[x] == |xs|
  {
    if xs != [] {
      AllSame(xs[1..], x);
      assert xs == [xs[0]] + xs[1..];
    }
  }

  /** One data-frame column: its header and its cells. */
  datatype Column = Column(name: string, cells: seq<Option<string>>)

  /** The header of every column, in order. */
  function Names(columns: seq<Column>): (ns: seq<string>)
    ensures |ns| == |columns|
    ensures forall k | 0 <= k < |columns| :: ns[k] == columns[k].name
  {
    seq(|columns|, k requires 0 <= k < |columns| => columns[k].name)
  }

  /** A dictionary filled in column order: `d[keys[k]] = vals[k]` for each
      `k` whose value is set, a later key overwriting an earlier one. */
  function Assign<V>(keys: seq<string>, vals: seq<Option<V>>): (r: map<string, V>)
    requires |keys| == |vals|
    ensures forall c :: c in r <==> exists k | 0 <= k < |keys| :: keys[k] == c && vals[k].Some?
    ensures forall c | c in r :: exists k | 0 <= k < |keys| :: keys[k] == c && vals[k] == Some(r[c])
  {
    if keys == [] then map[]
    else
      var n := |keys| - 1;
      var rest := Assign(keys[..n], vals[..n]);
      assert forall k | 0 <= k < n :: keys[..n][k] == keys[k] && vals[..n][k] == vals[k];
      match vals[n]
      case None => rest
      case Some(v) => rest[keys[n] := v]
  }

  /** The last set value of a key decides its entry. */
  lemma {:induction false} LastAssignWins<V>(keys: seq<string>, vals: seq<Option<V>>, k: nat)
    requires |keys| == |vals| && k < |keys| && vals[k].Some?
    requires forall j | k < j < |keys| :: keys[j] != keys[k] || vals[j].None?
    ensures Assign(keys, vals)[keys[k]] == vals[k].value
    decreases |keys|
  {
    var n := |keys| - 1;
    var rest := Assign(keys[..n], vals[..n]);
    assert Assign(keys, vals) == if vals[n].Some? then rest[keys[n] := vals[n].value] else rest;
    if k < n {
      assert keys[..n][k] == keys[k] && vals[..n][k] == vals[k];
      assert forall j | k < j < n :: keys[..n][j] == keys[j] && vals[..n][j] == vals[j];
      LastAssignWins(keys[..n], vals[..n], k);
    }
  }

  /** The override of every column, in order. */
  function Overrides(columns: seq<Column>): (os: seq<Option<string>>)
    ensures |os| == |columns|
    ensures forall k | 0 <= k < |columns| :: os[k] == ColumnOverride(columns[k].cells)
  {
    seq(|columns|, k requires 0 <= k < |columns| => ColumnOverride(columns[k].cells))
  }

  /** `infer_column_types(df)`: the override of every column that gets
      one, a later column of the same name overwriting an earlier one. */
  function InferColumnTypes(columns: seq<Column>): (r: map<string, string>)
    ensures forall c :: c in r <==>
      exists k | 0 <= k < |columns| :: columns[k].name == c && ColumnOverride(columns[k].cells).Some?
    ensures forall c | c in r :: r[c] in {"xsd:integer", "xsd:decimal", "xsd:boolean", "xsd:date"}
    ensures forall c | c in r ::
      exists k | 0 <= k < |columns| :: columns[k].name == c && ColumnOverride(columns[k].cells) == Some(r[c])
  {
    Assign(Names(columns), Overrides(columns))
  }

  /** A later column wins: the last column of a name that gets an
      override decides the entry. */
  lemma LastOverrideWins(columns: seq<Column>, k: nat)
    requires k < |columns| && ColumnOverride(columns[k].cells).Some?
    requires forall j | k < j < |columns| :: columns[j].name != columns[k].name || ColumnOverride(columns[j].cells).None?
    ensures InferColumnTypes(columns)[columns[k].name] == ColumnOverride(columns[k].cells).value
  {
    LastAssignWins(Names(columns), Overrides(columns), k);
  }

  /** `df[col].astype(str)`: a missing cell reads as `"nan"`. */
  function AsText(c: Option<string>): string {
    match c
    case None => "nan"
    case Some(s) => s
  }

  /** Some of the first 50 cells, read as text, contains `sep`. */
  predicate LooksMultivalued(cells: seq<Option<string>>, sep: string) {
    exists i | 0 <= i < |cells| && i < 50 :: Contains(AsText(cells[i]), sep)
  }

  /** The separator for every column that looks multivalued, in order. */
  function SeparatorMarks(columns: seq<Column>, sep: string): (ms: seq<Option<string>>)
    ensures |ms| == |columns|
    ensures forall k | 0 <= k < |columns| :: ms[k] == if LooksMultivalued(columns[k].cells, sep) then Some(sep) else None
  {
    seq(|columns|, k requires 0 <= k < |columns| => if LooksMultivalued(columns[k].cells, sep) then Some(sep) else None)
  }

  /** `detect_multivalues(df, default_sep)`: every column some of whose
      first 50 cells contain the separator, mapped to that separator. */
  function DetectMultivalues(columns: seq<Column>, sep: string): (r: map<string, string>)
    ensures forall c :: c in r <==>
      exists k | 0 <= k < |columns| :: columns[k].name == c && LooksMultivalued(columns[k].cells, sep)
    ensures forall c | c in r :: r[c] == sep
  {
    Assign(Names(columns), SeparatorMarks(columns, sep))
  }

  /** A column with no missing cells whose first cell contains the
      separator is detected. */
  lemma SeparatorInFirstCell(columns: seq<Column>, k: nat, sep: string)
    requires k < |columns| && columns[k].cells != [] && columns[k].cells[0].Some?
    requires Contains(columns[k].cells[0].value, sep)
    ensures columns[k].name in DetectMultivalues(columns, sep)
  {
    assert LooksMultivalued(columns[k].cells, sep);
  }

  /** The column names `suggest_primary_key` tries, in order. */
  const KeyCandidates: seq<string> := ["id", "ID", "Id", "eid", "EID", "link", "Link", "url", "URL"]

  /** The first of `options` present in `cols`, or `""` when none is. */
  function FirstPresent(options: seq<string>, cols: seq<string>): (r: string)
    requires forall k | 0 <= k < |options| :: options[k] != []
    ensures r == [] <==> forall k | 0 <= k < |options| :: options[k] !in cols
    ensures r != [] ==>
      exists k | 0 <= k < |options| :: options[k] == r && r in cols && forall j | 0 <= j < k :: options[j] !in cols
  {
    if options == [] then []
    else if options[0] in cols then options[0]
    else
      var r := FirstPresent(options[1..], cols);
      assert forall k | 1 <= k < |options| :: options[k] == options[1..][k - 1];
      r
  }

  /** `suggest_primary_key(cols)`: the first candidate name among the
      columns, or `""` when none is. */
  function SuggestPrimaryKey(cols: seq<string>): (r: string)
    ensures r == [] <==> forall k | 0 <= k < |KeyCandidates| :: KeyCandidates[k] !in cols
    ensures r != [] ==> exists k | 0 <= k < |KeyCandidates| ::
      KeyCandidates[k] == r && r in cols && forall j | 0 <= j < k :: KeyCandidates[j] !in cols
  {
    FirstPresent(KeyCandidates, cols)
  }
}

=== FILE: rdf.dfy ===
/** RDF terms and triples as the converter adds them to the graph, and the
    vocabulary IRIs it uses (rdflib's `RDF`, `RDFS` and `SKOS` namespaces). */
module Rdf {
  import opened Wrappers

  /** An object: an IRI, or a literal with an optional datatype IRI and an
      optional language tag, exactly as passed to rdflib's `Literal`. */
  datatype Term =
    | Iri(iri: string)
    | Literal(lexical: string, datatypeIri: Option<string>, lang: Option<string>)

  /** A subject–predicate–object statement; subjects and predicates are IRIs. */
  datatype Triple = Triple(subj: string, pred: string, obj: Term)

  const RdfType: string := "http://www.w3.org/1999/02/22-rdf-syntax-ns#type"
  const RdfsLabel: string := "http://www.w3.org/2000/01/rdf-schema#label"
  const SkosConceptScheme: string := "http://www.w3.org/2004/02/skos/core#ConceptScheme"
  const SkosConcept: string := "http://www.w3.org/2004/02/skos/core#Concept"
  const SkosPrefLabel: string := "http://www.w3.org/2004/02/skos/core#prefLabel"
  const SkosInScheme: string := "http://www.w3.org/2004/02/skos/core#inScheme"

  /** The language tag rdflib's `Literal` keeps for a configured `lang`:
      an empty string means no tag at all. */
  function LangTag(lang: string): Option<string> {
    if lang == [] then None else Some(lang)
  }

  /** `Literal(value, lang=lang)`: a plain literal, tagged unless `lang` is
      empty. */
  function LangLiteral(value: string, lang: string): (t: Term)
    ensures t.Literal? && t.lexical == value && t.datatypeIri.None?
    ensures t.lang.None? <==> lang == []
    ensures t.lang.Some? ==> t.lang.value == lang
  {
    Literal(value, None, LangTag(lang))
  }
}

=== FILE: slug.dfy ===
/** The identifier normaliser `safe` (csv2rdf.py:83-86): fold the text to
    ASCII, strip whitespace, turn every maximal run of non-word characters
    into one `_`, and strip `_` from both ends. */
module Slug {
  import opened Wrappers
  import opened Strings

  predicate IsAscii(c: char) {
    (c as int) < 0x80
  }

  /** What `normalize("NFKD", c).encode("ascii", "ignore")` leaves of one
      character: ASCII is kept, Latin-1 symbols and letters keep their
      compatibility or base letters (combining marks are dropped), and
      everything else, including Latin-1 letters without a decomposition
      such as `Æ` or `ß`, disappears. */
  function FoldChar(c: char): (r: string)
    ensures forall i :: 0 <= i < |r| ==> IsAscii(r[i])
    ensures IsAscii(c) ==> r == [c]
  {
    var n := c as int;
    if n < 0x80 then [c]
    else if n == 0xA0 || n == 0xA8 || n == 0xAF || n == 0xB4 || n == 0xB8 then " "
    else if n == 0xAA then "a"
    else if n == 0xBA then "o"
    else if n == 0xB9 then "1"
    else if n == 0xB2 then "2"
    else if n == 0xB3 then "3"
    else if n == 0xBC then "14"
    else if n == 0xBD then "12"
    else if n == 0xBE then "34"
    else if 0xC0 <= n <= 0xC5 then "A"
    else if n == 0xC7 then "C"
    else if 0xC8 <= n <= 0xCB then "E"
    else if 0xCC <= n <= 0xCF then "I"
    else if n == 0xD1 then "N"
    else if 0xD2 <= n <= 0xD6 then "O"
    else if 0xD9 <= n <= 0xDC then "U"
    else if n == 0xDD then "Y"
    else if 0xE0 <= n <= 0xE5 then "a"
    else if n == 0xE7 then "c"
    else if 0xE8 <= n <= 0xEB then "e"
    else if 0xEC <= n <= 0xEF then "i"
    else if n == 0xF1 then "n"
    else if 0xF2 <= n <= 0xF6 then "o"
    else if 0xF9 <= n <= 0xFC then "u"
    else if n == 0xFD || n == 0xFF then "y"
    else ""
  }

  /** The ASCII folding step of `safe`. */
  function AsciiFold(s: string): (r: string)
    ensures forall i :: 0 <= i < |r| ==> IsAscii(r[i])
    ensures (forall i :: 0 <= i < |s| ==> IsAscii(s[i])) ==> r == s
  {
    if s == [] then [] else FoldChar(s[0]) + AsciiFold(s[1..])
  }

  /** `\w` over ASCII: letters, digits and the underscore. */
  predicate IsWordChar(c: char) {
    ('a' <= c <= 'z') || ('A' <= c <= 'Z') || IsDigit(c) || c == '_'
  }

  /** Drops the leading run of non-word characters (the run `\W+` matches). */
  function SkipNonWord(s: string): (r: string)
    ensures |r| <= |s|
    ensures s != [] && !IsWordChar(s[0]) ==> |r| < |s|
  {
    if s != [] && !IsWordChar(s[0]) then SkipNonWord(s[1..]) else s
  }

  /** `re.sub(r"\W+", "_", s)`: each maximal run of non-word characters
      becomes a single underscore; word characters are copied. */
  function CollapseNonWord(s: string): (r: string)
    ensures forall i :: 0 <= i < |r| ==> IsWordChar(r[i])
    ensures (forall i :: 0 <= i < |s| ==> IsWordChar(s[i])) ==> r == s
    ensures |r| <= |s|
    decreases |s|
  {
    if s == [] then []
    else if IsWordChar(s[0]) then [s[0]] + CollapseNonWord(s[1..])
    else "_" + CollapseNonWord(SkipNonWord(s))
  }

  /** A whole run of non-word characters is skipped, up to the next word
      character. */
  lemma {:induction false} SkipNonWordRun(n: string, t: string)
    requires forall i :: 0 <= i < |n| ==> !IsWordChar(n[i])
    requires t == [] || IsWordChar(t[0])
    ensures SkipNonWord(n + t) == t
  {
    if n != [] {
      assert (n + t)[0] == n[0];
      assert (n + t)[1..] == n[1..] + t;
      SkipNonWordRun(n[1..], t);
    } else {
      assert n + t == t;
    }
  }

  /** `s` is made of word characters only, read from the front. */
  predicate AllWord(s: string) {
    s == [] || (IsWordChar(s[0]) && AllWord(s[1..]))
  }

  /** `AllWord` is the pointwise condition. */
  lemma {:induction false} AllWordPointwise(s: string)
    ensures AllWord(s) <==> forall i :: 0 <= i < |s| ==> IsWordChar(s[i])
  {
    if s != [] {
      AllWordPointwise(s[1..]);
      assert forall i :: 1 <= i < |s| ==> s[i] == s[1..][i - 1];
    }
  }

  /** Word characters in front are copied as they are. */
  lemma {:induction false} CollapseWordPrefix(w: string, x: string)
    requires AllWord(w)
    ensures CollapseNonWord(w + x) == w + CollapseNonWord(x)
  {
    if w != [] {
      ConsConcat(w, x);
      CollapseWordCons(w[0], w[1..] + x);
      CollapseWordPrefix(w[1..], x);
      ConsConcat(w, CollapseNonWord(x));
    } else {
      assert w + x == x;
    }
  }

  /** One word character in front is copied. */
  lemma CollapseWordCons(c: char, y: string)
    requires IsWordChar(c)
    ensures CollapseNonWord([c] + y) == [c] + CollapseNonWord(y)
  {
    assert ([c] + y)[1..] == y;
  }

  /** The substitution rule itself: word characters are copied, and a
      maximal run of non-word characters after them becomes one `_`, with
      the rest of the text treated the same way. */
  lemma CollapseRun(w: string, n: string, t: string)
    requires forall i :: 0 <= i < |w| ==> IsWordChar(w[i])
    requires n != [] && forall i :: 0 <= i < |n| ==> !IsWordChar(n[i])
    requires t == [] || IsWordChar(t[0])
    ensures CollapseNonWord(w + n + t) == w + "_" + CollapseNonWord(t)
  {
    var x := n + t;
    assert x[0] == n[0];
    SkipNonWordRun(n, t);
    assert CollapseNonWord(x) == "_" + CollapseNonWord(t);
    AllWordPointwise(w);
    CollapseWordPrefix(w, x);
    assert w + n + t == w + x;
  }

  /** `s.strip("_")`: no underscore is left at either end, word characters
      stay word characters, and a string without edge underscores is kept. */
  function StripUnderscores(s: string): (r: string)
    ensures r == [] || (r[0] != '_' && r[|r| - 1] != '_')
    ensures (forall i :: 0 <= i < |s| ==> IsWordChar(s[i])) ==>
              forall i :: 0 <= i < |r| ==> IsWordChar(r[i])
    ensures s == [] || (s[0] != '_' && s[|s| - 1] != '_') ==> r == s
  {
    Strip(s, {'_'})
  }

  /** `safe(text)`. */
  function Safe(text: string): (r: string)
    ensures forall i :: 0 <= i < |r| ==> IsWordChar(r[i])
    ensures r != [] ==> r[0] != '_' && r[|r| - 1] != '_'
  {
    var words := CollapseNonWord(Trim(AsciiFold(text)));
    StripUnderscores(words)
  }

  /** A slug: only word characters, and no underscore at either end. */
  predicate IsSlug(s: string) {
    && (forall i :: 0 <= i < |s| ==> IsWordChar(s[i]))
    && (s != [] ==> s[0] != '_' && s[|s| - 1] != '_')
  }

  /** The fixpoints of `safe` are exactly the slugs: `safe` leaves a slug
      untouched (so runs of `_` inside it are not collapsed), and anything
      `safe` leaves untouched is a slug. */
  lemma SafeFixpoint(s: string)
    ensures Safe(s) == s <==> IsSlug(s)
  {
    if IsSlug(s) {
      assert forall i :: 0 <= i < |s| ==> IsAscii(s[i]);
      assert AsciiFold(s) == s;
      assert IsTrimmed(s);
      assert Trim(s) == s;
      AllWordPointwise(s);
      CollapseWordPrefix(s, []);
      assert s + [] == s;
      assert StripUnderscores(s) == s;
    }
  }

  /** `safe` is idempotent. */
  lemma SafeIdempotent(s: string)
    ensures Safe(Safe(s)) == Safe(s)
  {
    SafeFixpoint(Safe(s));
  }

  /** Existing underscore runs survive, since `_` is itself a word
      character: `safe("a__b") == "a__b"`. */
  lemma SafeKeepsUnderscoreRuns()
    ensures Safe("a__b") == "a__b"
  {
    var s := "a__b";
    assert s[0] == 'a' && s[1] == '_' && s[2] == '_' && s[3] == 'b';
    assert IsSlug(s);
    SafeFixpoint(s);
  }
}

=== FILE: strings.dfy ===
/** String primitives of the Python runtime that the converter relies on:
    `str.strip`, `str.rstrip`, `str.split`, `str.startswith`, `in` on strings
    and `str.lower` (ASCII letters only). */
module Strings {
  import opened Wrappers

  /** The characters `str.isspace()` accepts: the ASCII whitespace and
      separator controls plus the Unicode space separators. */
  const Whitespace: set<char> := {
    ' ', '\t', '\n', '\U{0B}', '\U{0C}', '\r', '\U{1C}', '\U{1D}', '\U{1E}', '\U{1F}',
    '\U{85}', '\U{A0}', '\U{1680}',
    '\U{2000}', '\U{2001}', '\U{2002}', '\U{2003}', '\U{2004}', '\U{2005}',
    '\U{2006}', '\U{2007}', '\U{2008}', '\U{2009}', '\U{200A}',
    '\U{2028}', '\U{2029}', '\U{202F}', '\U{205F}', '\U{3000}'
  }

  predicate IsSpace(c: char) {
    c in Whitespace
  }

  /** An ASCII decimal digit (the `\d` of the patterns, over ASCII). */
  predicate IsDigit(c: char) {
    '0' <= c <= '9'
  }

  /** The first position at or after `i` whose character is not one of
      `chars` (or `|s|`). */
  function SkipFrom(s: string, chars: set<char>, i: nat): (a: nat)
    requires i <= |s|
    ensures i <= a <= |s|
    decreases |s| - i
  {
    if i < |s| && s[i] in chars then SkipFrom(s, chars, i + 1) else i
  }

  /** `SkipFrom` passes over characters of `chars` only, and stops at the
      end or at a character outside `chars`. */
  lemma {:induction false} SkipFromFacts(s: string, chars: set<char>, i: nat)
    requires i <= |s|
    ensures var a := SkipFrom(s, chars, i);
      && (forall j :: i <= j < a ==> s[j] in chars)
      && (a == |s| || s[a] !in chars)
    decreases |s| - i
  {
    if i < |s| && s[i] in chars {
      SkipFromFacts(s, chars, i + 1);
    }
  }

  /** The last end position at or before `j`, and not before `lo`, that
      follows a character which is not one of `chars` (or `lo`). */
  function SkipBackTo(s: string, chars: set<char>, lo: nat, j: nat): (b: nat)
    requires lo <= j <= |s|
    ensures lo <= b <= j
    decreases j
  {
    if j > lo && s[j - 1] in chars then SkipBackTo(s, chars, lo, j - 1) else j
  }

  /** `SkipBackTo` passes backwards over characters of `chars` only, and
      stops at `lo` or after a character outside `chars`. */
  lemma {:induction false} SkipBackToFacts(s: string, chars: set<char>, lo: nat, j: nat)
    requires lo <= j <= |s|
    ensures var b := SkipBackTo(s, chars, lo, j);
      && (forall k :: b <= k < j ==> s[k] in chars)
      && (b == lo || s[b - 1] !in chars)
    decreases j
  {
    if j > lo && s[j - 1] in chars {
      SkipBackToFacts(s, chars, lo, j - 1);
    }
  }

  /** `s.rstrip(chars)`: drops the longest suffix made of `chars`. */
  function StripRight(s: string, chars: set<char>): (r: string)
    ensures r == [] || r[|r| - 1] !in chars
    ensures |r| <= |s| && r == s[..|r|]
    ensures forall k :: |r| <= k < |s| ==> s[k] in chars
  {
    SkipBackToFacts(s, chars, 0, |s|);
    s[..SkipBackTo(s, chars, 0, |s|)]
  }

  /** `s.strip(chars)`: the infix left after dropping the longest prefix and
      then the longest suffix made of `chars`. It neither starts nor ends
      with one of `chars`, and a string with none of them at either end is
      left alone. */
  function Strip(s: string, chars: set<char>): (r: string)
    ensures r == [] || (r[0] !in chars && r[|r| - 1] !in chars)
    ensures s == [] || (s[0] !in chars && s[|s| - 1] !in chars) ==> r == s
  {
    var a := SkipFrom(s, chars, 0);
    SkipFromFacts(s, chars, 0);
    SkipBackToFacts(s, chars, a, |s|);
    s[a..SkipBackTo(s, chars, a, |s|)]
  }

  /** `r` is the infix of `s` starting at `a`, and everything before and
      after it in `s` is made of `chars`. */
  predicate DropsEnds(s: string, chars: set<char>, a: nat, r: string) {
    && a + |r| <= |s|
    && r == s[a..a + |r|]
    && (forall k | 0 <= k < a :: s[k] in chars)
    && (forall k | a + |r| <= k < |s| :: s[k] in chars)
  }

  /** Stripping removes only the two ends: the result is an infix of `s`
      with nothing but `chars` before and after it. Together with the
      contract of `Strip`, this fixes the result. */
  lemma StripDropsOnlyEnds(s: string, chars: set<char>)
    ensures exists a | 0 <= a <= |s| - |Strip(s, chars)| :: DropsEnds(s, chars, a, Strip(s, chars))
  {
    var a := SkipFrom(s, chars, 0);
    SkipFromFacts(s, chars, 0);
    SkipBackToFacts(s, chars, a, |s|);
    assert DropsEnds(s, chars, a, Strip(s, chars));
  }

  /** Conversely, an infix with only `chars` around it and none of `chars`
      at its ends is the stripped string. */
  lemma StripUnique(s: string, chars: set<char>, a: nat, r: string)
    requires DropsEnds(s, chars, a, r)
    requires r == [] || (r[0] !in chars && r[|r| - 1] !in chars)
    ensures Strip(s, chars) == r
  {
    var a0 := SkipFrom(s, chars, 0);
    SkipFromFacts(s, chars, 0);
    var b0 := SkipBackTo(s, chars, a0, |s|);
    SkipBackToFacts(s, chars, a0, |s|);
    if r == [] {
      assert forall k | 0 <= k < |s| :: s[k] in chars by {
        forall k | 0 <= k < |s| ensures s[k] in chars {
          if k >= a { assert a + |r| <= k; }
        }
      }
      StripEmpty(s, chars);
    } else {
      assert s[a] == r[0];
      assert s[a + |r| - 1] == r[|r| - 1];
      assert a0 == a;
      assert b0 == a + |r|;
    }
  }

  /** Only strings made of `chars` strip to nothing. */
  lemma StripEmpty(s: string, chars: set<char>)
    ensures (forall i :: 0 <= i < |s| ==> s[i] in chars) <==> Strip(s, chars) == []
  {
    var a := SkipFrom(s, chars, 0);
    SkipFromFacts(s, chars, 0);
    SkipBackToFacts(s, chars, a, |s|);
  }

  /** Stripping is idempotent: nothing is left to strip at either end. */
  lemma StripIdempotent(s: string, chars: set<char>)
    ensures Strip(Strip(s, chars), chars) == Strip(s, chars)
  {
  }

  /** No whitespace at either end. */
  predicate IsTrimmed(s: string) {
    s == [] || (!IsSpace(s[0]) && !IsSpace(s[|s| - 1]))
  }

  /** `str.strip()` with no argument: the result has no whitespace at
      either end, and a string without such whitespace is left alone. */
  function Trim(s: string): (r: string)
    ensures IsTrimmed(r)
    ensures IsTrimmed(s) ==> r == s
  {
    Strip(s, Whitespace)
  }

  /** `str.strip()` is idempotent. */
  lemma TrimIdempotent(s: string)
    ensures Trim(Trim(s)) == Trim(s)
  {
  }

  /** `s.startswith(prefix)`. */
  predicate StartsWith(s: string, prefix: string) {
    |prefix| <= |s| && s[..|prefix|] == prefix
  }

  /** `pat` occurs in `s` starting at position `i`. */
  predicate OccursAt(s: string, pat: string, i: int) {
    0 <= i && i + |pat| <= |s| && s[i..i + |pat|] == pat
  }

  /** `pat in s` for strings: `pat` is a substring of `s`. */
  predicate Contains(s: string, pat: string) {
    exists i | 0 <= i <= |s| :: OccursAt(s, pat, i)
  }

  /** The first occurrence of `pat` in `s` at or after position `k`. */
  function IndexFrom(s: string, pat: string, k: nat): (r: Option<nat>)
    requires k <= |s|
    ensures r.Some? ==> k <= r.value && OccursAt(s, pat, r.value)
    ensures r.Some? ==> forall j :: k <= j < r.value ==> !OccursAt(s, pat, j)
    ensures r.None? ==> forall j :: k <= j ==> !OccursAt(s, pat, j)
    decreases |s| - k
  {
    if OccursAt(s, pat, k) then Some(k)
    else if k == |s| then None
    else IndexFrom(s, pat, k + 1)
  }

  /** The first position of character `c` in `s` (`s.index(c)` when present). */
  function IndexOfChar(s: string, c: char): (r: Option<nat>)
    ensures r.Some? ==> r.value < |s| && s[r.value] == c && c !in s[..r.value]
    ensures r.None? <==> c !in s
  {
    if s == [] then None
    else if s[0] == c then Some(0)
    else match IndexOfChar(s[1..], c)
      case None => None
      case Some(i) => assert s[..i + 1] == [s[0]] + s[1..][..i]; Some(i + 1)
  }

  /** `sep.join(xs)`. */
  function Join(xs: seq<string>, sep: string): string {
    if |xs| == 0 then ""
    else if |xs| == 1 then xs[0]
    else xs[0] + sep + Join(xs[1..], sep)
  }

  /** An occurrence inside a prefix of `s` is an occurrence in `s`. */
  lemma OccursInPrefix(s: string, n: nat, pat: string, j: int)
    requires n <= |s| && OccursAt(s[..n], pat, j)
    ensures OccursAt(s, pat, j)
  {
    assert s[..n][j..j + |pat|] == s[j..j + |pat|];
  }

  /** `s.split(sep)` for a non-empty separator: the pieces between the
      leftmost non-overlapping occurrences of `sep`. Joining the pieces back
      with `sep` gives `s`, and no piece contains `sep`. */
  function Split(s: string, sep: string): (r: seq<string>)
    requires sep != []
    ensures |r| >= 1
    ensures Join(r, sep) == s
    ensures forall i :: 0 <= i < |r| ==> !Contains(r[i], sep)
    decreases |s|
  {
    match IndexFrom(s, sep, 0)
    case None => [s]
    case Some(i) =>
      var head := s[..i];
      var rest := Split(s[i + |sep|..], sep);
      assert s == head + sep + s[i + |sep|..] by {
        assert s[i..i + |sep|] == sep;
        assert s == s[..i] + s[i..i + |sep|] + s[i + |sep|..];
      }
      assert !Contains(head, sep) by {
        forall j | OccursAt(head, sep, j)
          ensures false
        {
          OccursInPrefix(s, i, sep, j);
        }
      }
      assert ([head] + rest)[1..] == rest;
      [head] + rest
  }

  /** The split is at the leftmost occurrence: there is a second piece
      exactly when `sep` occurs, and then the first piece ends where `sep`
      first occurs, so overlapping occurrences (`"|||"` split on `"||"`) are
      taken from the left. */
  lemma SplitLeftmost(s: string, sep: string)
    requires sep != []
    ensures |Split(s, sep)| == 1 <==> IndexFrom(s, sep, 0).None?
    ensures |Split(s, sep)| > 1 ==> IndexFrom(s, sep, 0) == Some(|Split(s, sep)[0]|)
  {
  }

  /** A one-character pattern occurs in `s` exactly when the character does. */
  lemma ContainsChar(s: string, c: char)
    ensures Contains(s, [c]) <==> c in s
  {
    if c in s {
      var i :| 0 <= i < |s| && s[i] == c;
      assert OccursAt(s, [c], i);
    }
    if Contains(s, [c]) {
      var i :| 0 <= i <= |s| && OccursAt(s, [c], i);
      assert s[i..i + 1] == [c];
      assert s[i] == c;
    }
  }

  /** The first occurrence of `[c]` in `x + [c] + t` is right after `x` when
      `x` does not contain `c`. */
  lemma FirstOccurrenceAfter(x: string, c: char, t: string)
    requires c !in x
    ensures IndexFrom(x + [c] + t, [c], 0) == Some(|x|)
  {
    var s := x + [c] + t;
    assert OccursAt(s, [c], |x|) by { assert s[|x|..|x| + 1] == [c]; }
    forall j | 0 <= j < |x|
      ensures !OccursAt(s, [c], j)
    {
      assert s[j] == x[j];
      assert s[j..j + 1] != [c] by { assert s[j..j + 1][0] == s[j]; }
    }
  }

  /** Round trip: splitting the join of pieces that do not contain a
      one-character separator gives the pieces back. */
  lemma {:induction false} SplitJoin(xs: seq<string>, c: char)
    requires |xs| >= 1
    requires forall i :: 0 <= i < |xs| ==> c !in xs[i]
    ensures Split(Join(xs, [c]), [c]) == xs
  {
    if |xs| == 1 {
      ContainsChar(xs[0], c);
      assert IndexFrom(xs[0], [c], 0).None?;
    } else {
      var t := Join(xs[1..], [c]);
      var s := Join(xs, [c]);
      assert s == xs[0] + [c] + t;
      FirstOccurrenceAfter(xs[0], c, t);
      assert s[..|xs[0]|] == xs[0];
      assert s[|xs[0]| + 1..] == t;
      SplitJoin(xs[1..], c);
      assert xs == [xs[0]] + xs[1..];
    }
  }

  /** ASCII `str.lower()` on one character. */
  function LowerChar(c: char): char {
    if 'A' <= c <= 'Z' then (c as int + 32) as char else c
  }

  /** `str.lower()` restricted to ASCII letters. */
  function Lower(s: string): (r: string)
    ensures |r| == |s|
    ensures forall i :: 0 <= i < |s| ==> r[i] == LowerChar(s[i])
  {
    if s == [] then [] else [LowerChar(s[0])] + Lower(s[1..])
  }
}

=== FILE: tables.dfy ===
/** The loaded table: the data frame after header clean-up and
    `fillna("")`, so every missing cell reads as the empty string. */
module Tables {
  import opened Wrappers

  /** One row: column name to cell text. */
  type Row = map<string, string>

  /** The header (in file order) and the rows. */
  datatype Table = Table(columns: seq<string>, rows: seq<Row>)

  /** `row.get(col, "")`. */
  function Get(row: Row, col: string): string {
    Lookup(row, col, "")
  }
}

=== FILE: template.dfy ===
/** The entity-template branch of the row loop (csv2rdf.py:210-267): a
    column with an entity template turns every value of its source column
    into a child resource under the entity base, with types, literals and a
    link from the row's subject (and back, when an inverse predicate is
    configured). */
module Template {
  import opened Wrappers
  import opened Strings
  import opened Slug
  import opened Cells
  import opened Curie
  import opened Rdf
  import opened Tables
  import opened Config
  import opened PathTemplate

  /** The values a template expands: the cell of `source_column` (the
      triggering column itself by default), split on the template's
      `separator` (the column separator by default). */
  function TemplateValues(spec: EntityTemplate, row: Row, col: string, colSep: string): seq<string> {
    SplitCell(Get(row, OrElse(spec.sourceColumn, col)), OrElse(spec.separator, colSep))
  }

  /** The `{id}` candidates: the `id_source` column split on its own
      multivalue separator, or the column separator; never on the
      template's separator. No `id_source` gives no candidates. */
  function TemplateIds(cfg: MappingConfig, spec: EntityTemplate, row: Row, colSep: string): seq<string> {
    match spec.idColumn
    case None => []
    case Some(c) => SplitCell(Get(row, c), Lookup(cfg.multivalued, c, colSep))
  }

  /** csv2rdf.py:235: the `{id}` of the value at position `idx` is the id
      candidate at the same position when there is one that is not blank,
      and the value's slug otherwise. */
  function IdFor(ids: seq<string>, idx: nat, v: string): (r: string)
    ensures idx < |ids| && Trim(ids[idx]) != [] ==> r == Trim(ids[idx])
    ensures idx >= |ids| || Trim(ids[idx]) == [] ==> r == Safe(v)
    ensures r == Safe(v) || (r != [] && IsTrimmed(r))
  {
    if idx < |ids| && Trim(ids[idx]) != [] then Trim(ids[idx]) else Safe(v)
  }

  /** Ids split on a real separator are used position by position as they
      stand, and values past the last id fall back to their slug. */
  lemma IdForAligned(cell: string, sep: string, idx: nat, v: string)
    requires sep != []
    ensures idx < |SplitCell(cell, sep)| ==> IdFor(SplitCell(cell, sep), idx, v) == SplitCell(cell, sep)[idx]
    ensures idx >= |SplitCell(cell, sep)| ==> IdFor(SplitCell(cell, sep), idx, v) == Safe(v)
  {
    var ids := SplitCell(cell, sep);
    if idx < |ids| {
      assert IsTrimmed(ids[idx]);
    }
  }

  /** csv2rdf.py:241-256: the text of one literal of the child at position
      `idx` with value `v`, or `None` when the rule emits nothing. A mode
      string gives the value (`"raw"`) or its slug; a `from_column` rule
      gives the trimmed cell of that column, or with `match_by_index` the
      trimmed element at the same position of that cell split on its
      multivalue separator (the column separator by default). */
  function LiteralValue(rule: LiteralRule, v: string, idx: nat, row: Row, cfg: MappingConfig,
                        colSep: string): (r: Option<string>)
    ensures rule.Ignored? ==> r.None?
    ensures rule.Mode? && rule.mode == "raw" ==> r == Some(v)
    ensures rule.Mode? && rule.mode != "raw" ==> r == Some(Safe(v))
    ensures rule.FromColumn? && r.Some? ==> r.value != [] && IsTrimmed(r.value)
    ensures rule.FromColumn? && !rule.byIndex ==>
      (r.Some? <==> Trim(Get(row, rule.column)) != []) &&
      (r.Some? ==> r.value == Trim(Get(row, rule.column)))
  {
    match rule
    case Mode(m) => Some(if m == "raw" then v else Safe(v))
    case FromColumn(c, byIndex) =>
      var raw := Get(row, c);
      if byIndex then
        var aux := SplitCell(raw, Lookup(cfg.multivalued, c, colSep));
        if idx < |aux| && Trim(aux[idx]) != [] then Some(Trim(aux[idx])) else None
      else if Trim(raw) != [] then Some(Trim(raw)) else None
    case Ignored => None
  }

  /** A `match_by_index` literal split on a real separator exists exactly
      for the positions the other column has values for, and is the value
      at that position. */
  lemma ByIndexLiteral(c: string, v: string, idx: nat, row: Row, cfg: MappingConfig, colSep: string)
    requires Lookup(cfg.multivalued, c, colSep) != []
    ensures var aux := SplitCell(Get(row, c), Lookup(cfg.multivalued, c, colSep));
      var r := LiteralValue(FromColumn(c, true), v, idx, row, cfg, colSep);
      && (r.Some? <==> idx < |aux|)
      && (r.Some? ==> r.value == aux[idx])
  {
    var aux := SplitCell(Get(row, c), Lookup(cfg.multivalued, c, colSep));
    if idx < |aux| {
      assert IsTrimmed(aux[idx]);
    }
  }

  /** The `rdf:type` triples of a child, one per configured type. */
  function ChildTypes(env: Env, spec: EntityTemplate, child: string): (r: set<Triple>)
    ensures forall t | t in spec.types :: Triple(child, RdfType, Iri(Expand(t, env.prefixes))) in r
    ensures forall t | t in r ::
      t.subj == child && t.pred == RdfType && exists ty | ty in spec.types :: t.obj == Iri(Expand(ty, env.prefixes))
  {
    set t | t in spec.types :: Triple(child, RdfType, Iri(Expand(t, env.prefixes)))
  }

  /** The literal triples of a child, one per rule that yields a value, all
      tagged with the configured language. */
  function ChildLiterals(env: Env, spec: EntityTemplate, row: Row, child: string, v: string, idx: nat,
                         colSep: string): (r: set<Triple>)
    ensures forall lp | lp in spec.literals && LiteralValue(spec.literals[lp], v, idx, row, env.cfg, colSep).Some? ::
      Triple(child, Expand(lp, env.prefixes),
        LangLiteral(LiteralValue(spec.literals[lp], v, idx, row, env.cfg, colSep).value, env.cfg.lang)) in r
    ensures forall t | t in r ::
      t.subj == child && t.obj.Literal? && t.obj.lang == LangTag(env.cfg.lang) && t.obj.datatypeIri.None?
    ensures forall t | t in r ::
      exists lp | lp in spec.literals && LiteralValue(spec.literals[lp], v, idx, row, env.cfg, colSep).Some? ::
        t == Triple(child, Expand(lp, env.prefixes),
          LangLiteral(LiteralValue(spec.literals[lp], v, idx, row, env.cfg, colSep).value, env.cfg.lang))
  {
    set lp | lp in spec.literals && LiteralValue(spec.literals[lp], v, idx, row, env.cfg, colSep).Some? ::
      Triple(child, Expand(lp, env.prefixes),
        LangLiteral(LiteralValue(spec.literals[lp], v, idx, row, env.cfg, colSep).value, env.cfg.lang))
  }

  /** csv2rdf.py:226 and 265: the link back is added only when
      `inverse_predicate` is set and expands to a non-empty IRI, since
      `URIRef("")` is falsy. */
  predicate HasInverse(env: Env, spec: EntityTemplate) {
    spec.inversePredicate != [] && Expand(spec.inversePredicate, env.prefixes) != []
  }

  /** The triples of one child: its types, its literals, the link from the
      parent and, when the inverse predicate expands to an IRI, the link
      back. */
  function ChildTriples(env: Env, spec: EntityTemplate, row: Row, subj: string, link: string,
                        child: string, v: string, idx: nat, colSep: string): (r: set<Triple>)
    ensures Triple(subj, link, Iri(child)) in r
    ensures HasInverse(env, spec) ==>
      Triple(child, Expand(spec.inversePredicate, env.prefixes), Iri(subj)) in r
    ensures ChildTypes(env, spec, child) <= r
    ensures ChildLiterals(env, spec, row, child, v, idx, colSep) <= r
    ensures forall t | t in r :: t.subj == child || t == Triple(subj, link, Iri(child))
    ensures forall t | t in r && t.obj.Literal? :: t.obj.lang == LangTag(env.cfg.lang) && t.obj.datatypeIri.None?
    ensures !HasInverse(env, spec) && child != subj ==>
      forall t | t in r && t.obj == Iri(subj) :: t.pred == RdfType
  {
    var back := if HasInverse(env, spec) then
        {Triple(child, Expand(spec.inversePredicate, env.prefixes), Iri(subj))}
      else {};
    var types := ChildTypes(env, spec, child);
    var literals := ChildLiterals(env, spec, row, child, v, idx, colSep);
    var r := types + literals + {Triple(subj, link, Iri(child))} + back;
    assert forall t | t in r :: t in types || t in literals || t == Triple(subj, link, Iri(child)) || t in back;
    r
  }

  /** Conversely, a child has nothing but its types, its literals, the link
      from the parent and the link back when there is one. */
  lemma ChildTriplesOnly(env: Env, spec: EntityTemplate, row: Row, subj: string, link: string,
                         child: string, v: string, idx: nat, colSep: string)
    ensures forall t | t in ChildTriples(env, spec, row, subj, link, child, v, idx, colSep) ::
      || t in ChildTypes(env, spec, child)
      || t in ChildLiterals(env, spec, row, child, v, idx, colSep)
      || t == Triple(subj, link, Iri(child))
      || (HasInverse(env, spec) && t == Triple(child, Expand(spec.inversePredicate, env.prefixes), Iri(subj)))
  {
  }

  /** An inverse predicate of `":"` with no empty prefix declared expands to
      the empty IRI, so no link back is added. */
  lemma BareColonInverseAddsNoBackLink(env: Env, spec: EntityTemplate, row: Row, subj: string, link: string,
                                       child: string, v: string, idx: nat, colSep: string)
    requires spec.inversePredicate == ":" && "" !in env.prefixes
    requires child != subj
    ensures !HasInverse(env, spec)
    ensures forall t | t in ChildTriples(env, spec, row, subj, link, child, v, idx, colSep) && t.obj == Iri(subj) ::
      t.pred == RdfType
  {
    assert IndexOfChar(":", ':') == Some(0);
    assert Expand(":", env.prefixes) == [];
  }

  /** The child IRI of the value at position `idx`: the entity base
      followed by the filled-in path. */
  function ChildIri(env: Env, path: string, values: seq<string>, ids: seq<string>, idx: nat): (iri: string)
    requires idx < |values| && ParsePath(path).Some?
    ensures StartsWith(iri, env.entityBase)
  {
    var iri := env.entityBase + FormatPath(path, values[idx], Safe(values[idx]), IdFor(ids, idx, values[idx])).value;
    assert iri[..|env.entityBase|] == env.entityBase;
    iri
  }

  /** The child IRIs of all values, position by position. */
  function ChildIris(env: Env, path: string, values: seq<string>, ids: seq<string>): (iris: seq<string>)
    requires ParsePath(path).Some?
    ensures |iris| == |values|
    ensures forall i | 0 <= i < |values| :: iris[i] == ChildIri(env, path, values, ids, i)
    ensures forall i | 0 <= i < |values| :: StartsWith(iris[i], env.entityBase)
  {
    seq(|values|, i requires 0 <= i < |values| => ChildIri(env, path, values, ids, i))
  }

  /** The triples of each child of one cell, position by position, the
      child of value `values[i]` being `iris[i]`. */
  function ChildSets(env: Env, spec: EntityTemplate, row: Row, subj: string, link: string,
                     values: seq<string>, iris: seq<string>, colSep: string): (kids: seq<set<Triple>>)
    requires |iris| == |values|
    ensures |kids| == |values|
    ensures forall i | 0 <= i < |values| ::
      kids[i] == ChildTriples(env, spec, row, subj, link, iris[i], values[i], i, colSep)
    ensures forall i | 0 <= i < |values| :: Triple(subj, link, Iri(iris[i])) in kids[i]
    ensures forall i | 0 <= i < |values| :: forall t | t in kids[i] :: t.subj == subj || t.subj == iris[i]
  {
    seq(|values|, i requires 0 <= i < |values| => ChildTriples(env, spec, row, subj, link, iris[i], values[i], i, colSep))
  }

  /** csv2rdf.py:229-266: the children of all values of a cell, under a
      path template that parses. Every value's child is linked from the
      subject, and every triple is about the subject or a child under the
      entity base. */
  function ExpandValues(env: Env, spec: EntityTemplate, row: Row, subj: string, link: string, path: string,
                        values: seq<string>, ids: seq<string>, colSep: string): (r: set<Triple>)
    requires ParsePath(path).Some?
    ensures forall i | 0 <= i < |values| :: Triple(subj, link, Iri(ChildIri(env, path, values, ids, i))) in r
    ensures forall t | t in r :: t.subj == subj || StartsWith(t.subj, env.entityBase)
    ensures forall i | 0 <= i < |values| ::
      ChildTriples(env, spec, row, subj, link, ChildIri(env, path, values, ids, i), values[i], i, colSep) <= r
    ensures forall t | t in r :: exists i | 0 <= i < |values| ::
      t in ChildTriples(env, spec, row, subj, link, ChildIri(env, path, values, ids, i), values[i], i, colSep)
  {
    var iris := ChildIris(env, path, values, ids);
    var kids := ChildSets(env, spec, row, subj, link, values, iris, colSep);
    UnionSubjects(kids, iris, subj, env.entityBase);
    UnionAll(kids, |kids|)
  }

  /** When each set is about `subj` or its own IRI under `base`, so is
      their union. */
  lemma UnionSubjects(kids: seq<set<Triple>>, iris: seq<string>, subj: string, base: string)
    requires |kids| == |iris|
    requires forall i | 0 <= i < |iris| :: StartsWith(iris[i], base)
    requires forall i | 0 <= i < |kids| :: forall t | t in kids[i] :: t.subj == subj || t.subj == iris[i]
    ensures forall t | t in UnionAll(kids, |kids|) :: t.subj == subj || StartsWith(t.subj, base)
  {
    forall t | t in UnionAll(kids, |kids|) && t.subj != subj
      ensures StartsWith(t.subj, base)
    {
      var i :| 0 <= i < |kids| && t in kids[i];
    }
  }

  /** csv2rdf.py:210-267 for one cell of column `col` in a row with subject
      `subj`. The link predicate is looked up before any value is expanded,
      so a template without one fails even when it has no values; the path
      is only filled in, and so only fails, when there is a value. */
  function TemplateCell(env: Env, spec: EntityTemplate, row: Row, subj: string, col: string)
    : (r: Result<set<Triple>, Error>)
    ensures var values := TemplateValues(spec, row, col, ColumnSeparator(env.cfg, col));
      var path := OrElse(spec.path, "{safe_value}");
      && (r.Failure? <==> spec.linkPredicate.None? || (values != [] && ParsePath(path).None?))
      && (r.Failure? ==> r.error == (if spec.linkPredicate.None? then LinkPredicateMissing(col)
                                    else MalformedPath(col, path)))
      && (r.Success? && values == [] ==> r.value == {})
    ensures r.Success? ==>
      var colSep := ColumnSeparator(env.cfg, col);
      var values := TemplateValues(spec, row, col, colSep);
      var ids := TemplateIds(env.cfg, spec, row, colSep);
      var path := OrElse(spec.path, "{safe_value}");
      forall i | 0 <= i < |values| ::
        Triple(subj, Expand(spec.linkPredicate.value, env.prefixes), Iri(ChildIri(env, path, values, ids, i))) in r.value
    ensures r.Success? ==>
      forall t | t in r.value :: t.subj == subj || StartsWith(t.subj, env.entityBase)
  {
    var colSep := ColumnSeparator(env.cfg, col);
    var values := TemplateValues(spec, row, col, colSep);
    var ids := TemplateIds(env.cfg, spec, row, colSep);
    var path := OrElse(spec.path, "{safe_value}");
    match spec.linkPredicate
    case None => Failure(LinkPredicateMissing(col))
    case Some(lp) =>
      if ParsePath(path).None? then
        if values == [] then Success({}) else Failure(MalformedPath(col, path))
      else
        Success(ExpandValues(env, spec, row, subj, Expand(lp, env.prefixes), path, values, ids, colSep))
  }

  /** A successful template cell holds every triple of each value's child,
      and nothing else. */
  lemma TemplateCellChildren(env: Env, spec: EntityTemplate, row: Row, subj: string, col: string)
    requires TemplateCell(env, spec, row, subj, col).Success?
    ensures var colSep := ColumnSeparator(env.cfg, col);
      var values := TemplateValues(spec, row, col, colSep);
      var ids := TemplateIds(env.cfg, spec, row, colSep);
      var path := OrElse(spec.path, "{safe_value}");
      var link := Expand(spec.linkPredicate.value, env.prefixes);
      var r := TemplateCell(env, spec, row, subj, col).value;
      values != [] ==>
        && ParsePath(path).Some?
        && (forall i | 0 <= i < |values| ::
              ChildTriples(env, spec, row, subj, link, ChildIri(env, path, values, ids, i), values[i], i, colSep) <= r)
        && (forall t | t in r :: exists i | 0 <= i < |values| ::
              t in ChildTriples(env, spec, row, subj, link, ChildIri(env, path, values, ids, i), values[i], i, colSep))
  {
  }

  /** Every literal the children of a cell carry has the configured
      language. */
  lemma ExpandValuesTagsLiterals(env: Env, spec: EntityTemplate, row: Row, subj: string, link: string, path: string,
                                 values: seq<string>, ids: seq<string>, colSep: string)
    requires ParsePath(path).Some?
    ensures forall t | t in ExpandValues(env, spec, row, subj, link, path, values, ids, colSep) && t.obj.Literal? ::
      t.obj.lang == LangTag(env.cfg.lang)
  {
    var iris := ChildIris(env, path, values, ids);
    var kids := ChildSets(env, spec, row, subj, link, values, iris, colSep);
    forall i | 0 <= i < |kids|
      ensures forall t: Triple | t in kids[i] && t.obj.Literal? :: t.obj.lang == LangTag(env.cfg.lang)
    {
      assert kids[i] == ChildTriples(env, spec, row, subj, link, iris[i], values[i], i, colSep);
    }
    UnionTagged(kids, |kids|, LangTag(env.cfg.lang));
  }

  /** When every set gives its literals the language tag `tag`, so does
      their union. */
  lemma {:induction false} UnionTagged(kids: seq<set<Triple>>, n: nat, tag: Option<string>)
    requires n <= |kids|
    requires forall i | 0 <= i < |kids| :: forall t | t in kids[i] && t.obj.Literal? :: t.obj.lang == tag
    ensures forall t | t in UnionAll(kids, n) && t.obj.Literal? :: t.obj.lang == tag
  {
    if n > 0 {
      UnionTagged(kids, n - 1, tag);
    }
  }

  /** Every literal a template cell emits carries the configured language. */
  lemma TemplateCellTagsLiterals(env: Env, spec: EntityTemplate, row: Row, subj: string, col: string)
    requires TemplateCell(env, spec, row, subj, col).Success?
    ensures forall t | t in TemplateCell(env, spec, row, subj, col).value && t.obj.Literal? ::
      t.obj.lang == LangTag(env.cfg.lang)
  {
    var colSep := ColumnSeparator(env.cfg, col);
    var path := OrElse(spec.path, "{safe_value}");
    if ParsePath(path).Some? {
      ExpandValuesTagsLiterals(env, spec, row, subj, Expand(spec.linkPredicate.value, env.prefixes), path,
        TemplateValues(spec, row, col, colSep), TemplateIds(env.cfg, spec, row, colSep), colSep);
    }
  }

  /** The template is triggered by its column but reads its values from
      `source_column`: when that is another column, the triggering cell
      itself does not matter. */
  lemma ValuesComeFromSourceColumn(spec: EntityTemplate, row: Row, col: string, colSep: string, x: string)
    requires spec.sourceColumn.Some? && spec.sourceColumn.value != col
    ensures TemplateValues(spec, row[col := x], col, colSep) == TemplateValues(spec, row, col, colSep)
  {
  }

  /** The `{id}` candidates are split on the id column's own separator and
      never on the template's `separator`. */
  lemma IdsIgnoreTemplateSeparator(cfg: MappingConfig, spec: EntityTemplate, row: Row, colSep: string,
                                   sep: Option<string>)
    ensures TemplateIds(cfg, spec.(separator := sep), row, colSep) == TemplateIds(cfg, spec, row, colSep)
  {
  }
}

=== FILE: wrappers.dfy ===
/** Failure-compatible wrappers, the dictionary lookup with a default
    (`dict.get(key, default)`) used throughout the converter, and the union
    of a sequence of sets (triples accumulated in a graph). */
module Wrappers {

  /** A value that may be absent. */
  datatype Option<+T> = None | Some(value: T)

  /** The outcome of an operation that may fail with an error. */
  datatype Result<+R, +E> = Success(value: R) | Failure(error: E)

  /** `m.get(k, default)`: the entry for `k`, or `default` when `k` is absent. */
  function Lookup<K, V>(m: map<K, V>, k: K, default: V): (v: V)
    ensures k in m ==> v == m[k]
    ensures k !in m ==> v == default
  {
    if k in m then m[k] else default
  }

  /** `spec.get(key, default)` for an optional entry: the value when present,
      otherwise `default`. */
  function OrElse<T>(o: Option<T>, default: T): (v: T)
    ensures o.Some? ==> v == o.value
    ensures o.None? ==> v == default
  {
    match o
    case Some(x) => x
    case None => default
  }

  /** The union of the first `n` sets of `ss`. */
  function UnionAll<T>(ss: seq<set<T>>, n: nat): (r: set<T>)
    requires n <= |ss|
    ensures forall k | 0 <= k < n :: ss[k] <= r
    ensures forall x | x in r :: exists k | 0 <= k < n :: x in ss[k]
  {
    if n == 0 then {} else UnionAll(ss, n - 1) + ss[n - 1]
  }

  /** A subset of one set is a subset of its union with another. */
  lemma SubsetOfUnion<T>(a: set<T>, b: set<T>, c: set<T>)
    requires a <= b
    ensures a <= b + c && a <= c + b
  {
  }

  /** Splitting off the head of the left operand of a concatenation. */
  lemma ConsConcat<T>(w: seq<T>, x: seq<T>)
    requires w != []
    ensures [w[0]] + (w[1..] + x) == w + x
  {
    assert w == [w[0]] + w[1..];
  }

  /** Concatenation is associative. */
  lemma ConcatAssoc<T>(x: seq<T>, y: seq<T>, z: seq<T>)
    ensures x + (y + z) == (x + y) + z
  {
  }
}
